=== FILE: README.md ===
# Two-tier cache of the yueerba framework, in Dafny

This project models the cache core of the yueerba framework. The framework
keeps a local Caffeine tier in front of a shared Redis tier. A Bloom filter
stored in Redis records which full keys have been written since the last
`clear`, which deletes the filter's bitset along with the cached keys. The model
covers the following parts:

- **Two cache versions.**
  - The `manage/support` cache consults the filter before every read. It
    keys both tiers by the full cache key and locks a miss with either an
    in-process monitor or a distributed lease.
  - The `manager/custom` cache answers `get` through its own `lookup`:
    the local tier, then the raw Redis value. It consults the filter only
    when both tiers miss. It keys its local tier by the raw key, and it emits
    change records from its batch operations and from shared-tier lookups.
- **Key namespacing.** Full keys have the form
  `<app>:RedisCaffeineCache:<cacheName>:<rawKey>`. `clear` deletes keys by
  prefix scan.
- **Null writes.** A load that produced null, and the custom `put` of a
  null, call `set(key, "CUSTOM_NULL_VALUE", 300)`. With an `int` third
  argument that is Redis SETRANGE at byte offset 300, not a write with a
  300-second expiry. So Redis never holds the bare sentinel string, and the
  later sentinel checks do not match what these writes leave. Nor is what
  they leave a serialised object, so reading it back throws.
- **Reconciliation queue.** Change records are produced and consumed in
  FIFO order.
- **Delayed-sync queue.** This queue pushes local values back to Redis.
- **Keyspace-event dispatcher.** It turns a Redis notification into one
  listener callback.
- **Per-name cache registry** and **hit/miss statistics**. The statistics
  use Java `long` wrap-around.
- **Redis client configuration.** There are builders for single-server,
  cluster and sentinel mode, plus the selector that picks one of them.

Every operation is a pure function or method over immutable state. A cache
state holds both tiers, the filter, the held locks and, for the custom
version, the emitted records. The following are passed in as explicit
parameters:

- a value loader: `Throws`, `ReturnsNull` or `Returns(v)`;
- the lock table's `isLocked` answer;
- an interrupt flag;
- the Redis contents.

Each `get` outcome counts how many times the loader ran.

Behaviour modelled as the code has it, which differs from what its comments
suggest:

- **Null load in `manage/support`.** When the loader returns null,
  `loadFromRedisAndPutIntoCaffeine` first writes the sentinel and the filter
  entry. It then hands null to Caffeine's `put`, which rejects null values.
  The exception is caught and rethrown as a load failure, so that `get`
  fails. The next `get` reads the range-written bytes from Redis, which the
  serializer cannot read, so it throws too, without calling its loader.
- **`batchGet` in `manage/support`.** Any key missing locally goes to
  Redis's multi-get. That call returns a list, which is cast to a map, and the
  cast fails. So the call succeeds only when every key is a local hit.
- **Keyspace dispatcher.** It uses the third `:`-segment of the channel as
  the action. It passes the whole channel as the key and ignores the message
  body. A key-event channel such as `__keyevent@0__:del` has only two
  segments, so it always fails with an index error.
- **Custom cache reads.** A Redis hit is returned raw by `lookup`, the
  sentinel string included, and is not copied to the local tier. A key the
  filter already contains, missing from both tiers, is never loaded again.
  After an eviction it therefore reads as null. Without a local entry, a
  `get` after `put(k, null)` throws on the range-written bytes.

## Model

| member | source | states |
|---|---|---|
| CacheKeys.CacheKey | yueerba-framework/src/main/java/com/yueerba/framework/cache/manage/support/RedisCaffeineCache.java:254-258 | the full key is the cache's `app:RedisCaffeineCache:name:` prefix followed by the raw key, which can be read back from it |
| CacheKeys.CacheKeyInjective | yueerba-framework/src/main/java/com/yueerba/framework/cache/manage/support/RedisCaffeineCache.java:138-141 | within one cache, two raw keys share a full key exactly when they are equal |
| CacheKeys.RemovePrefixed | yueerba-framework/src/main/java/com/yueerba/framework/cache/manage/support/RedisCaffeineCache.java:470-482 | after the prefix scan and delete, Redis holds exactly the keys not starting with the prefix, with unchanged values |
| CacheKeys.ClearReachesExtendingName | yueerba-framework/src/main/java/com/yueerba/framework/cache/manage/support/RedisCaffeineCache.java:476-479 | clearing cache `a` deletes every key of a cache whose prefix extends `a`'s prefix |
| CacheKeys.ClearSparesDivergingName | yueerba-framework/src/main/java/com/yueerba/framework/cache/manage/support/RedisCaffeineCache.java:476-479 | clearing `a` keeps every key of a cache whose prefix neither extends nor is extended by `a`'s |
| CacheKeys.ClearCollidesAcrossNames | yueerba-framework/src/main/java/com/yueerba/framework/cache/manage/support/RedisCaffeineCache.java:138-141 | caches named `A` and `A:B` map raw keys `B:x` and `x` to the same full key, and each one's clear reaches the other's keys |
| Bloom.Add | yueerba-framework/src/main/java/com/yueerba/framework/cache/manage/support/RedisCaffeineCache.java:349 | after adding, the filter reports the key, is one a sequence of adds can reach, and has its bitset; it still reports every key it reported before, and no other key changes (false positives are fixed) |
| Bloom.AddAll | yueerba-framework/src/main/java/com/yueerba/framework/cache/manage/support/RedisCaffeineCache.java:220 | the filter reports exactly the keys it reported before plus the added ones; it stays reachable, and has a bitset exactly when it had one or some key was added |
| Bloom.OccupiedIffReportsSome | yueerba-framework/src/main/java/com/yueerba/framework/cache/manage/support/RedisCaffeineCache.java:349 | for a filter a sequence of adds reaches, the bitset exists exactly when the filter reports some key |
| Batch.ToMap | yueerba-framework/src/main/java/com/yueerba/framework/cache/manage/support/RedisCaffeineCache.java:197-199 | the map denoted by a batch has exactly the batch's keys |
| Batch.ToMapHoldsEntry | yueerba-framework/src/main/java/com/yueerba/framework/cache/manage/support/RedisCaffeineCache.java:197-199 | with distinct keys, every entry's value is the map's value for its key |
| ManageCache.LoadFromShared | yueerba-framework/src/main/java/com/yueerba/framework/cache/manage/support/RedisCaffeineCache.java:337-362 | under a lock on the key: a shared hit is promoted to local, or read as null if it is the sentinel, without the loader. Shared bytes the serializer cannot read fail as they are, from the read before the rethrowing block, with nothing changed and no loader call. A shared miss calls the loader once. A loaded value reaches both tiers and the filter. A null load range-writes the sentinel string at offset 300, which leaves unreadable bytes that are not the sentinel, adds the filter entry, then fails. A throwing loader changes nothing |
| ManageCache.RecheckThenLoad | yueerba-framework/src/main/java/com/yueerba/framework/cache/manage/support/RedisCaffeineCache.java:309-312 | inside the lock, a local hit is returned unchanged and only a local miss reaches the load |
| ManageCache.Get | yueerba-framework/src/main/java/com/yueerba/framework/cache/manage/support/RedisCaffeineCache.java:291-328 | a key the filter rejects reads as null with no loader call. A local hit is served as is. The loader runs once exactly when filter, local and Redis all miss. It fails exactly on a throwing or null load (a load failure for the key) or when a filtered key missing locally has Redis bytes the serializer cannot read (that error, with nothing changed). Held locks are restored, only this key's entries change, and filter entries are kept |
| ManageCache.GetIgnoresLockChoice | yueerba-framework/src/main/java/com/yueerba/framework/cache/manage/support/RedisCaffeineCache.java:305-326 | the monitor path and the distributed-lock path give the same outcome |
| ManageCache.Lookup | yueerba-framework/src/main/java/com/yueerba/framework/cache/manage/support/RedisCaffeineCache.java:513-537 | filter rejection reads as null; otherwise the local value, then the raw Redis value (the sentinel is not translated), and null only when neither tier has the key. It throws exactly when it reaches Redis bytes the serializer cannot read |
| ManageCache.LookupAgreesWithGet | yueerba-framework/src/main/java/com/yueerba/framework/cache/manage/support/RedisCaffeineCache.java:291-328 | where a tier answers, `get` returns what `lookup` sees with the sentinel read as null, fails with nothing changed where `lookup` throws, and never calls the loader |
| ManageCache.Put | yueerba-framework/src/main/java/com/yueerba/framework/cache/manage/support/RedisCaffeineCache.java:371-384 | both tiers hold the value under the full key, and the filter reports it; nothing else changes |
| ManageCache.PutThenGet | yueerba-framework/src/main/java/com/yueerba/framework/cache/manage/support/RedisCaffeineCache.java:371-384 | after `put(k, v)`, `get(k)` returns `v` with no loader call and no state change |
| ManageCache.SentinelValueReadsBackAsNull | yueerba-framework/src/main/java/com/yueerba/framework/cache/manage/support/RedisCaffeineCache.java:355-357 | a genuine value equal to the sentinel string reads back as null once its local copy is gone |
| Values.WriteSentinelAt | yueerba-framework/src/main/java/com/yueerba/framework/cache/manage/support/RedisCaffeineCache.java:346 | the value a SETRANGE of the sentinel string at offset 300 leaves holds that string at the offset but is never the sentinel itself, nor bytes the serializer can read back; over a value already holding it there, nothing changes |
| Values.WriteSentinelIsIdempotent | yueerba-framework/src/main/java/com/yueerba/framework/cache/manager/custom/RedisCaffeineCache.java:162-164 | a second `put(k, null)` leaves the Redis value the first one left |
| ManageCache.NullLoadIsNotRemembered | yueerba-framework/src/main/java/com/yueerba/framework/cache/manage/support/RedisCaffeineCache.java:339-357 | a `get` whose loader returns null fails with a load failure; the next `get` calls no loader and fails too, on reading the range-written bytes, changing nothing |
| ManageCache.LoadedValueIsServed | yueerba-framework/src/main/java/com/yueerba/framework/cache/manage/support/RedisCaffeineCache.java:339-350 | a loaded value is what the next `get` serves, without a loader call |
| ManageCache.PutIfAbsent | yueerba-framework/src/main/java/com/yueerba/framework/cache/manage/support/RedisCaffeineCache.java:394-411 | local alone decides. An existing local value is returned with nothing changed. Otherwise local takes the value, Redis takes it only if Redis lacks the key, the value is returned, and the filter is untouched |
| ManageCache.PutIfAbsentThenGet | yueerba-framework/src/main/java/com/yueerba/framework/cache/manage/support/RedisCaffeineCache.java:394-411 | after `putIfAbsent`, `get` calls no loader and changes nothing; it serves the value now in local when the filter knows the key, and null otherwise |
| ManageCache.PutIfAbsentDiverges | yueerba-framework/src/main/java/com/yueerba/framework/cache/manage/support/RedisCaffeineCache.java:398-404 | after `putIfAbsent` the two tiers can hold different values for one key |
| ManageCache.Evict | yueerba-framework/src/main/java/com/yueerba/framework/cache/manage/support/RedisCaffeineCache.java:420-430 | neither tier holds the key afterwards; the filter still does; nothing else changes |
| ManageCache.EvictThenGetLoads | yueerba-framework/src/main/java/com/yueerba/framework/cache/manage/support/RedisCaffeineCache.java:420-430 | because the filter keeps an evicted key, the next `get` calls the loader |
| ManageCache.EvictIfPresent | yueerba-framework/src/main/java/com/yueerba/framework/cache/manage/support/RedisCaffeineCache.java:439-464 | returns true exactly when some tier held the key; afterwards neither does |
| ManageCache.EvictIfPresentIsEvict | yueerba-framework/src/main/java/com/yueerba/framework/cache/manage/support/RedisCaffeineCache.java:439-464 | its effect on the state is that of `evict` |
| ManageCache.Clear | yueerba-framework/src/main/java/com/yueerba/framework/cache/manage/support/RedisCaffeineCache.java:470-482 | local is emptied; Redis loses exactly the keys under this cache's prefix, among them the filter's bitset, so the filter reports no key |
| ManageCache.ClearThenGetReadsNull | yueerba-framework/src/main/java/com/yueerba/framework/cache/manage/support/RedisCaffeineCache.java:470-482 | after `clear` the emptied filter rejects every key, so `get` reads null without a loader call, whatever was written before |
| ManageCache.Invalidate | yueerba-framework/src/main/java/com/yueerba/framework/cache/manage/support/RedisCaffeineCache.java:490-504 | same effect as `clear`; returns true exactly when the prefix scan found a key: a cached entry under the prefix or the filter's bitset, which exists exactly when the filter reports some key |
| ManageCache.BatchPut | yueerba-framework/src/main/java/com/yueerba/framework/cache/manage/support/RedisCaffeineCache.java:197-221 | every entry's full key holds that entry's value in both tiers and is reported by the filter; other keys keep their entries |
| ManageCache.BatchPutThenGet | yueerba-framework/src/main/java/com/yueerba/framework/cache/manage/support/RedisCaffeineCache.java:197-221 | a batch entry written under `cacheKey(k)` is what `get(k)` serves |
| ManageCache.BatchEvict | yueerba-framework/src/main/java/com/yueerba/framework/cache/manage/support/RedisCaffeineCache.java:229-245 | both tiers lose every listed key; other entries and the filter are unchanged |
| ManageCache.BatchEvictThenGetLoads | yueerba-framework/src/main/java/com/yueerba/framework/cache/manage/support/RedisCaffeineCache.java:229-245 | a key evicted in a batch is still known to the filter, so the next `get` calls the loader once |
| ManageCache.BatchGet | yueerba-framework/src/main/java/com/yueerba/framework/cache/manage/support/RedisCaffeineCache.java:155-189 | succeeds exactly when every key is a local hit, returning exactly those keys with their local values. Any miss fails: with the serializer's error exactly when some missed key has Redis bytes it cannot read, and otherwise with the list-to-map cast error |
| ManageCache.BatchGetFailsOnLocalMiss | yueerba-framework/src/main/java/com/yueerba/framework/cache/manage/support/RedisCaffeineCache.java:173-180 | a key held only by Redis makes `batchGet` fail, on the cast, or on the multi-get when its bytes cannot be read, while the local hit alone is returned |
| ManageCache.BatchPutThenBatchGet | yueerba-framework/src/main/java/com/yueerba/framework/cache/manage/support/RedisCaffeineCache.java:155-221 | a batch written by `batchPut` is read back entry by entry by `batchGet` |
| CustomCache.LoadUnderLease | yueerba-framework/src/main/java/com/yueerba/framework/cache/manager/custom/RedisCaffeineCache.java:424-466 | inside the lease the filter is re-checked. A filter hit changes nothing. A Redis hit is copied to local, or read as null if it is the sentinel; Redis bytes the serializer cannot read fail with nothing changed. The loader runs exactly when filter and Redis miss; its value goes to Redis, the filter and local, while a null load range-writes the sentinel string into Redis, adds the filter entry and stores a local null; a throwing loader changes nothing |
| CustomCache.LoadFromRedisOrLoader | yueerba-framework/src/main/java/com/yueerba/framework/cache/manager/custom/RedisCaffeineCache.java:413-480 | a filter hit answers with what `super.get` reads back, without locking; otherwise the lease is released on every path. A throwing loader or unreadable Redis bytes fail with nothing changed. Otherwise the answer is what `lookup` then finds: a copied Redis value or a loaded value from local, the raw sentinel when Redis held it, null after a null load |
| CustomCache.ReadBack | yueerba-framework/src/main/java/com/yueerba/framework/cache/manager/custom/RedisCaffeineCache.java:477 | `super.get(key)` answers with `lookup`'s effect and either the value it found (null when it found nothing) or the exception it threw |
| CustomCache.Get | yueerba-framework/src/main/java/com/yueerba/framework/cache/manager/custom/RedisCaffeineCache.java:128-145 | a local entry, including a stored null, is returned as is. After a local miss a readable Redis value is returned raw, with a LOOK record and no local copy, while bytes the serializer cannot read throw with nothing changed. When both tiers miss, a filter hit reads as null without loading. The loader runs once exactly when local, Redis and filter all miss. It fails exactly when the loader throws or the Redis bytes cannot be read, with nothing changed. Locks are restored and only this key's entries change |
| CustomCache.Put | yueerba-framework/src/main/java/com/yueerba/framework/cache/manager/custom/RedisCaffeineCache.java:155-180 | a null only range-writes the sentinel string into the Redis value at offset 300; a value goes to Redis, the filter and local |
| CustomCache.PutThenGet | yueerba-framework/src/main/java/com/yueerba/framework/cache/manager/custom/RedisCaffeineCache.java:155-180 | after `put(k, v)`, `get(k)` returns `v` with no loader call and no state change |
| CustomCache.PutNullKeepsLocalValue | yueerba-framework/src/main/java/com/yueerba/framework/cache/manager/custom/RedisCaffeineCache.java:162-164 | `put(k, null)` leaves an older local value, which `get` keeps serving |
| CustomCache.PutNullThenGet | yueerba-framework/src/main/java/com/yueerba/framework/cache/manager/custom/RedisCaffeineCache.java:162-164 | without a local entry, `get` after `put(k, null)` throws on reading the range-written Redis bytes, with no loader call, no record and nothing changed, instead of returning null |
| CustomCache.Evict | yueerba-framework/src/main/java/com/yueerba/framework/cache/manager/custom/RedisCaffeineCache.java:189-204 | Redis loses the full key and local the raw key; the filter keeps it |
| CustomCache.FilteredKeyIsNeverReloaded | yueerba-framework/src/main/java/com/yueerba/framework/cache/manager/custom/RedisCaffeineCache.java:416-418 | a key the filter holds but local lacks reads as null without any loader call, whatever the loader would return |
| CustomCache.PutEvictGetReadsNull | yueerba-framework/src/main/java/com/yueerba/framework/cache/manager/custom/RedisCaffeineCache.java:416-418 | a `put`, an `evict` and a `get` of the same key read back null |
| CustomCache.Clear | yueerba-framework/src/main/java/com/yueerba/framework/cache/manager/custom/RedisCaffeineCache.java:211-229 | local is emptied and Redis loses exactly the keys under this cache's prefix, among them the filter's bitset, so the filter reports no key |
| CustomCache.Lookup | yueerba-framework/src/main/java/com/yueerba/framework/cache/manager/custom/RedisCaffeineCache.java:239-267 | a local entry is returned; on a local miss the raw Redis value, and a LOOK record for the full key is appended exactly when Redis has a readable value; bytes the serializer cannot read throw before any record; nothing is copied to local |
| CustomCache.GetAgreesWithLookup | yueerba-framework/src/main/java/com/yueerba/framework/cache/manager/custom/RedisCaffeineCache.java:128-145 | wherever `lookup` finds something or throws, `get` is exactly what `super.get` reads back, with `lookup`'s effect and no loader call |
| CustomCache.ClearThenGetLoads | yueerba-framework/src/main/java/com/yueerba/framework/cache/manager/custom/RedisCaffeineCache.java:211-229 | after `clear` neither tier holds the key and the filter is empty, so `get` calls the loader once and serves its value, null for a null load, or fails with nothing changed |
| CustomCache.AddRecords | yueerba-framework/src/main/java/com/yueerba/framework/cache/manager/custom/RedisCaffeineCache.java:347-351 | for the distinct keys of a map, one ADD record per entry, in order, as `createAddOrUpdateEvent` builds it |
| CustomCache.DeleteRecords | yueerba-framework/src/main/java/com/yueerba/framework/cache/manager/custom/RedisCaffeineCache.java:378-383 | one DELETE record per key, in order, as `createDeleteEvent` builds it |
| CustomCache.BatchPut | yueerba-framework/src/main/java/com/yueerba/framework/cache/manager/custom/RedisCaffeineCache.java:322-352 | for the distinct keys of a map, every entry's value is in local (as a value) and in Redis, and its key in the filter; other keys keep their entries; the ADD records are appended |
| CustomCache.BatchEvict | yueerba-framework/src/main/java/com/yueerba/framework/cache/manager/custom/RedisCaffeineCache.java:361-384 | local and Redis lose every listed key; other entries are unchanged; the DELETE records are appended |
| CustomCache.BatchPutThenGet | yueerba-framework/src/main/java/com/yueerba/framework/cache/manager/custom/RedisCaffeineCache.java:322-352 | with distinct keys, `get` of a batch entry's key serves its value from local, with no loader call and no change |
| CustomCache.BatchEvictThenGet | yueerba-framework/src/main/java/com/yueerba/framework/cache/manager/custom/RedisCaffeineCache.java:361-384 | a key whose raw and full spellings were both evicted, and which the filter knows, reads null without loading |
| VersionDifferences.FilterHitAfterLocalMiss | yueerba-framework/src/main/java/com/yueerba/framework/cache/manager/custom/RedisCaffeineCache.java:239-267 | with the same Redis contents and filter, a filtered key missing locally whose Redis value is readable is served from Redis by both; `manage/support` copies it to local, the custom version does not and appends a LOOK record |
| VersionDifferences.FilterMissWithSharedValue | yueerba-framework/src/main/java/com/yueerba/framework/cache/manage/support/RedisCaffeineCache.java:293-296 | a key the filter lacks but Redis holds, readable, reads as null in `manage/support`, and as the Redis value in the custom version, with no load, no local copy and a LOOK record |
| VersionDifferences.UnreadableRedisValue | yueerba-framework/src/main/java/com/yueerba/framework/cache/manager/custom/RedisCaffeineCache.java:256 | Redis bytes the serializer cannot read make the custom `get` throw whatever the filter says, and the `manage/support` `get` throw only when the filter lets the read through, else read null; neither loads or changes anything |
| VersionDifferences.SentinelReadsDiffer | yueerba-framework/src/main/java/com/yueerba/framework/cache/manager/custom/RedisCaffeineCache.java:239-267 | a sentinel string in Redis under a filtered key reads as null in `manage/support` and as the raw sentinel in the custom version |
| VersionDifferences.UnknownKeyLoads | yueerba-framework/src/main/java/com/yueerba/framework/cache/manage/support/RedisCaffeineCache.java:293-296 | for a key nobody wrote, `manage/support` never calls the loader while the custom version calls it once and serves its value |
| KeyspaceEvents.Segments | yueerba-framework/src/main/java/com/yueerba/framework/listener/RedisKeyspaceEventListener.java:55 | the channel splits into one colon-free segment more than it has colons, and joining them back with ':' gives the channel |
| KeyspaceEvents.DropTrailingEmpty | yueerba-framework/src/main/java/com/yueerba/framework/listener/RedisKeyspaceEventListener.java:55 | the result is a prefix of the segments ending in a non-empty one, and only empty segments are dropped |
| KeyspaceEvents.Split | yueerba-framework/src/main/java/com/yueerba/framework/listener/RedisKeyspaceEventListener.java:55 | a channel without ':' splits into itself alone |
| KeyspaceEvents.Route | yueerba-framework/src/main/java/com/yueerba/framework/listener/RedisKeyspaceEventListener.java:62-111 | each action selects its own callback by exact match, `flushdb` and `flushall` both clear, and anything else reports "Received an unknown Redis key event: " plus the action; put and rename-to carry the Redis value of the key |
| KeyspaceEvents.OnMessage | yueerba-framework/src/main/java/com/yueerba/framework/listener/RedisKeyspaceEventListener.java:49-112 | the index error happens exactly when the split channel has fewer than three segments; otherwise the callback is the one its third segment selects, keyed by the whole channel |
| KeyspaceEvents.BodyIsIgnored | yueerba-framework/src/main/java/com/yueerba/framework/listener/RedisKeyspaceEventListener.java:51 | the message body never changes the outcome |
| KeyspaceEvents.ShortChannelFails | yueerba-framework/src/main/java/com/yueerba/framework/listener/RedisKeyspaceEventListener.java:55-57 | a channel with fewer than two ':' always fails with the index error |
| KeyspaceEvents.TrailingEmptyActionFails | yueerba-framework/src/main/java/com/yueerba/framework/listener/RedisKeyspaceEventListener.java:55-57 | a channel `a:b:` fails too, because the trailing empty segment is dropped |
| KeyspaceEvents.ThirdSegmentIsAction | yueerba-framework/src/main/java/com/yueerba/framework/listener/RedisKeyspaceEventListener.java:55-62 | for a channel `a:b:act...` with a non-empty action segment, the callback is the one `act` selects, keyed by the whole channel |
| CacheChange.CreateAddOrUpdateEvent | yueerba-framework/src/main/java/com/yueerba/framework/cache/manage/queue/CacheChange.java:48-50 | the record is an ADD (never UPDATE) for the given key and value |
| CacheChange.CreateDeleteEvent | yueerba-framework/src/main/java/com/yueerba/framework/cache/manage/queue/CacheChange.java:58-60 | the record is a DELETE for the given key with a null value |
| ChangeQueue.Produce | yueerba-framework/src/main/java/com/yueerba/framework/cache/manage/queue/producer/CacheDelayedProducer.java:33-39 | the record is appended at the tail and the queue before it is kept; an interrupted put leaves the queue unchanged |
| ChangeQueue.Consume | yueerba-framework/src/main/java/com/yueerba/framework/cache/manage/queue/consumer/CacheDelayedConsumer.java:34-41 | an interrupt takes nothing, an empty queue blocks, and otherwise the head is taken and the rest keeps its order |
| ChangeQueue.RunOnce | yueerba-framework/src/main/java/com/yueerba/framework/cache/manage/queue/consumer/CacheDelayedConsumer.java:57-68 | one iteration yields nothing on an empty queue or an interrupt, and otherwise removes and yields the head |
| ChangeQueue.Run | yueerba-framework/src/main/java/com/yueerba/framework/cache/manage/queue/consumer/CacheDelayedConsumer.java:57-68 | `n` iterations process exactly the first `n` queued records in order and leave the rest |
| ChangeQueue.ProduceAll | yueerba-framework/src/main/java/com/yueerba/framework/cache/manage/queue/producer/CacheDelayedProducer.java:33-39 | records produced one after another end up appended in production order |
| ChangeQueue.ProcessedInProductionOrder | yueerba-framework/src/main/java/com/yueerba/framework/cache/manage/queue/consumer/CacheDelayedConsumer.java:57-68 | FIFO: records produced after those already queued are processed after them, each exactly once, in production order, leaving the queue empty |
| DelayedSync.AddToDelayedSync | yueerba-framework/src/main/java/com/yueerba/framework/cache/manage/producer/CacheDelayedProducer.java:27-29 | the key is appended at the tail of the queue |
| DelayedSync.Poll | yueerba-framework/src/main/java/com/yueerba/framework/cache/manage/producer/CacheDelayedProducer.java:37-39 | an empty queue yields null; otherwise the head is removed and returned |
| DelayedSync.NoDeduplication | yueerba-framework/src/main/java/com/yueerba/framework/cache/manage/producer/CacheDelayedProducer.java:27-29 | a key added twice is polled twice |
| DelayedSync.SyncKeyToRedis | yueerba-framework/src/main/java/com/yueerba/framework/cache/manage/consumer/CacheDelayedConsumer.java:46-51 | a `lookup` that throws fails the sync; a key `lookup` does not find is skipped; otherwise what it finds is re-written through `put`, so both tiers then hold it |
| DelayedSync.SyncKeyKeepsLookup | yueerba-framework/src/main/java/com/yueerba/framework/cache/manage/consumer/CacheDelayedConsumer.java:46-51 | a sync that does not throw changes only its own key's entries, and nothing `lookup` sees for any key nor any filter answer |
| DelayedSync.SyncAll | yueerba-framework/src/main/java/com/yueerba/framework/cache/manage/consumer/CacheDelayedConsumer.java:34-38 | the keys are synced in order until one read throws; a drain that failed stopped short of the end, and one that did not synced every key |
| DelayedSync.SyncAllKeepsLookup | yueerba-framework/src/main/java/com/yueerba/framework/cache/manage/consumer/CacheDelayedConsumer.java:34-38 | a drain changes nothing `lookup` sees and no filter answer; every key before where it stopped reads without failure, and it stops at a key whose `lookup` throws |
| DelayedSync.SyncAllFailsIffSomeReadThrows | yueerba-framework/src/main/java/com/yueerba/framework/cache/manage/consumer/CacheDelayedConsumer.java:34-38 | a drain fails exactly when the `lookup` of some listed key throws |
| DelayedSync.FailedDrainStops | yueerba-framework/src/main/java/com/yueerba/framework/cache/manage/consumer/CacheDelayedConsumer.java:36-37 | once a read has thrown, further keys change nothing: the exception ends the loop |
| DelayedSync.SyncAllAgrees | yueerba-framework/src/main/java/com/yueerba/framework/cache/manage/consumer/CacheDelayedConsumer.java:34-38 | after a drain, each key synced before it stopped that `lookup` answered with a value is held by both tiers with that value |
| DelayedSync.Consume | yueerba-framework/src/main/java/com/yueerba/framework/cache/manage/consumer/CacheDelayedConsumer.java:34-38 | every key taken is taken once in FIFO order and the cache is what the drain of the queue leaves. Without a failing read the queue ends empty; otherwise the key whose read threw is taken but not synced, and the keys after it stay queued |
| CacheRegistry.CreateCache | yueerba-framework/src/main/java/com/yueerba/framework/cache/manage/support/RedisCaffeineCacheManager.java:68-87 | a new instance has the requested name, no locks, an empty queue and an id no registered instance has |
| CacheRegistry.GetCache | yueerba-framework/src/main/java/com/yueerba/framework/cache/manage/support/RedisCaffeineCacheManager.java:48-50 | a known name returns its instance with nothing changed; a new name registers a fresh instance; other names are untouched; validity is preserved |
| CacheRegistry.Requested | yueerba-framework/src/main/java/com/yueerba/framework/cache/manage/support/RedisCaffeineCacheManager.java:58-60 | the names of a request sequence are exactly its elements |
| CacheRegistry.NamesAreThoseRequested | yueerba-framework/src/main/java/com/yueerba/framework/cache/manage/support/RedisCaffeineCacheManager.java:48-60 | from an empty registry, the cache names are exactly those requested, one instance is created per distinct name, and instances stay distinct |
| CacheRegistry.GetCacheIsIdempotent | yueerba-framework/src/main/java/com/yueerba/framework/cache/manage/support/RedisCaffeineCacheManager.java:48-50 | asking twice for one name yields the same instance and registry |
| CacheStatistics.Wrap64 | yueerba-framework/src/main/java/com/yueerba/framework/cache/manage/stats/CacheStats.java:61 | the result is a Java `long`, equal to its input when that already fits |
| CacheStatistics.WrapAbsorbs | yueerba-framework/src/main/java/com/yueerba/framework/cache/manage/stats/CacheStats.java:61-62 | wrapping an intermediate sum does not change the wrapped total |
| CacheStatistics.RecordHits | yueerba-framework/src/main/java/com/yueerba/framework/cache/manage/stats/CacheStats.java:60-63 | requests and hits grow by `count` in 64-bit arithmetic; nothing else changes; requests stay equal to hits plus misses |
| CacheStatistics.RecordMisses | yueerba-framework/src/main/java/com/yueerba/framework/cache/manage/stats/CacheStats.java:68-71 | requests and misses grow by `count` in 64-bit arithmetic; nothing else changes; requests stay equal to hits plus misses |
| CacheStatistics.UpdateCacheSize | yueerba-framework/src/main/java/com/yueerba/framework/cache/manage/stats/CacheStats.java:78-80 | only the cache size changes |
| CacheStatistics.SetMaxCacheSize | yueerba-framework/src/main/java/com/yueerba/framework/cache/manage/stats/CacheStats.java:87-89 | only the maximum size changes |
| CacheStatistics.HitRate | yueerba-framework/src/main/java/com/yueerba/framework/cache/manage/stats/CacheStats.java:44-46 | zero without requests, else the rate times the request count is the hit count |
| CacheStatistics.MissRate | yueerba-framework/src/main/java/com/yueerba/framework/cache/manage/stats/CacheStats.java:53-55 | zero without requests, else the rate times the request count is the miss count |
| CacheStatistics.RecordingStaysBalanced | yueerba-framework/src/main/java/com/yueerba/framework/cache/manage/stats/CacheStats.java:60-71 | any sequence of recorded hits and misses keeps requests equal to hits plus misses |
| CacheStatistics.FreshRecordStaysBalanced | yueerba-framework/src/main/java/com/yueerba/framework/cache/manage/stats/CacheStats.java:17-71 | a freshly constructed record keeps requests equal to hits plus misses under any sequence of recorded hits and misses |
| CacheStatistics.RatesSumToOne | yueerba-framework/src/main/java/com/yueerba/framework/cache/manage/stats/CacheStats.java:44-55 | with requests, non-negative counts and no overflow, hit rate plus miss rate is one |
| NodeConverter.Normalize | yueerba-framework/src/main/java/com/yueerba/framework/cache/utils/NodeConverter.java:34-38 | the result carries a scheme; an address with `redis://` or `rediss://` is kept, any other is prefixed with `redis://` |
| NodeConverter.Convert | yueerba-framework/src/main/java/com/yueerba/framework/cache/utils/NodeConverter.java:27-43 | the output has one normalised address per input, in input order |
| NodeConverter.NormalizeIsIdempotent | yueerba-framework/src/main/java/com/yueerba/framework/cache/utils/NodeConverter.java:34-38 | converting an already converted address changes nothing |
| NodeConverter.SecureAddressKept | yueerba-framework/src/main/java/com/yueerba/framework/cache/utils/NodeConverter.java:34 | a `rediss://` address is not wrapped in `redis://` |
| RedisConfig.GetTimeout | yueerba-framework/src/main/java/com/yueerba/framework/cache/redisson/builder/SingleServerConfigBuilder.java:70-85 | the timeout in milliseconds is returned exactly when it is between 0 and `Integer.MAX_VALUE`. Larger values fail with the "too large" state error, which is checked first, and negative values fail with the "cannot be negative" argument error. A missing timeout is a null dereference |
| RedisConfig.ServerAddress | yueerba-framework/src/main/java/com/yueerba/framework/cache/redisson/builder/SingleServerConfigBuilder.java:56-62 | the address is `rediss://` when ssl is on, else `redis://`, followed by `host:port` |
| RedisConfig.ServerAddressIsNormal | yueerba-framework/src/main/java/com/yueerba/framework/cache/redisson/builder/SingleServerConfigBuilder.java:58 | the single-server address already has a scheme, so node conversion would keep it |
| RedisConfig.BuildSingle | yueerba-framework/src/main/java/com/yueerba/framework/cache/redisson/builder/SingleServerConfigBuilder.java:33-48 | a timeout failure propagates; otherwise the configuration has the address, timeout, database and password |
| RedisConfig.NormalizeAll | yueerba-framework/src/main/java/com/yueerba/framework/cache/utils/NodeConverter.java:27-43 | the node list, in order, with each address normalised |
| RedisConfig.BuildCluster | yueerba-framework/src/main/java/com/yueerba/framework/cache/redisson/builder/ClusterConfigBuilder.java:35-52 | missing cluster properties or a null node list are a null dereference, before the timeout is read; otherwise a timeout failure propagates; on success the node addresses are the normalised cluster nodes in order, with timeout and password and no database |
| RedisConfig.BuildSentinel | yueerba-framework/src/main/java/com/yueerba/framework/cache/redisson/builder/SentinelConfigBuilder.java:34-53 | missing sentinel properties or a null node list are a null dereference, before the timeout is read; otherwise a timeout failure propagates; on success the master, the normalised sentinel nodes in order, database, timeout and password |
| RedisConfig.BuiltAddressesHaveProtocol | yueerba-framework/src/main/java/com/yueerba/framework/cache/utils/NodeConverter.java:27-43 | every address in a built configuration carries a scheme |
| RedisConfig.SelectBuilder | yueerba-framework/src/main/java/com/yueerba/framework/cache/config/selector/RedisConfigSelector.java:45-68 | sentinel mode exactly when sentinel properties exist, cluster mode exactly when only cluster properties exist, single mode otherwise |
| RedisConfig.SelectConfig | yueerba-framework/src/main/java/com/yueerba/framework/cache/config/selector/RedisConfigSelector.java:45-58 | the selected builder's result is returned |
| RedisConfig.SelectedBuilderFailures | yueerba-framework/src/main/java/com/yueerba/framework/cache/config/selector/RedisConfigSelector.java:45-58 | the selected configuration never fails for a missing section: it fails exactly when the selected node list is null (a null dereference, checked first) or the timeout check fails (with that error), and otherwise has the kind the properties select |

## Left out

- Spring wiring, Redisson client creation, reflection and logging are not modelled. The Redis store is a map and values are opaque. Serialisation is reduced to whether a stored value can be read back.
- Concurrency is not modelled. The in-process monitor, the distributed lease and the double-check lock table appear only as a held-lock multiset and as the `isLocked` answer passed in; each operation runs atomically.
- Expiry is not modelled: Caffeine's size and write-expiry eviction, and Redis keyspace expiry. Dropping a local entry is modelled by removing it from the map explicitly.
- Values.Readable: every range-written value is taken as unreadable. Without an earlier value the bytes start with 300 zero bytes, which neither the JDK nor the JSON serializer accepts. Over an earlier value whose serialised form is shorter than 300 bytes, a serializer that stops after one object could read that earlier value back; the model does not look at lengths.
- CacheKeys.RemovePrefixed: the scan `keys(prefix + "*")` is a Redis glob, but the model matches a literal prefix. A `*`, `?`, `[` or `\` in the application or cache name would be pattern syntax. This also holds for both `Clear` functions and `Invalidate`, which use it.
- DelayedSync.SyncKeyToRedis: the consumer calls `get` on the result of `getNativeCache()`, which is declared `Object`, so that line does not compile. The object returned is the cache itself, and the model reads it through the cache's `lookup`. It puts the value `lookup` finds, not the wrapper Spring's `get(key)` would return.
- Bloom.Add: the false positives are a fixed set, so adding one key never makes another report present. In a real bitset an add sets bits that can turn other keys into false positives.
- The Bloom filter's size and false-positive rate are not modelled. The filter is a set of added keys plus a fixed set of false positives, so it has no false negatives.
- The filter's own Redis key, `<prefix>bloomFilter`, is kept apart from the modelled Redis map as the filter itself; `clear` and `invalidate` delete it, which empties the filter. A `put` or `evict` of the raw key `bloomFilter`, which maps onto that key, is not modelled, nor is one cache's `clear` deleting the bitset of a cache whose prefix extends its own.
- Values.WriteSentinelAt: values are compared by their write history, not their bytes. A repeated range write over an earlier one is recognised as changing nothing, but a plain value whose serialised bytes already hold the sentinel string at offset 300 is not.
- CustomCache.Cache: raw keys are strings. The custom Caffeine tier is keyed by the key object itself and Redis by its `toString()`, so two unequal keys that print alike, such as `1` and `"1"`, share one Redis key but are two local entries; that is not modelled.
- ManageCache.Put: a null value is not modelled. Caffeine would refuse it before Redis is written.
- ManageCache.PutIfAbsent: a null value is not modelled, for the same reason.
- The custom `batchGet` is not modelled. It refers to a Caffeine field that the class does not declare. The custom `batchPut` and `batchEvict`, which have the same defect, are modelled as their code reads. The custom `lookup` hands its LOOK record to a consumer field the class does not declare either; the record is kept in the cache state.
- CustomCache.Get: assumes the cache was built with null values allowed, so a stored null is an entry (`None`). It reads the wrapper `super.get` returns as the value it holds.
- The change queue's `getQueue` is not modelled on its own. Producer and consumer act on one shared `Channel` value.
- Records the custom cache appends are kept in its state. Their delivery to a consumer is the change queue's `Produce`.
- The keyspace dispatcher's database-index parse and the listener implementations are not modelled. Neither affects which callback is chosen.
- The second keyspace consumer and the hit-rate, size and performance monitors are not modelled. They are not part of this model.
- CacheStatistics.HitRate: the rates are computed in real arithmetic rather than as IEEE doubles.
- CacheStatistics.MissRate: the rates are computed in real arithmetic rather than as IEEE doubles.
- RedisConfig.BuildCluster: a null element inside the node list, on which the conversion would also throw, is not modelled; nodes are strings.
- RedisConfig.BuildSentinel: a null element inside the node list is not modelled either.
- RedisConfig.GetTimeout: takes the timeout already in milliseconds, so the overflow of `Duration.toMillis` is not modelled.
- Compile-level defects are not modelled:
  - `CacheStats.java` has two package declarations.
  - The selector imports its builders from a package they are not in.
  - The manager calls the `manage/support` cache constructor with a different parameter list.
  - The delayed-sync consumer calls `get` on an `Object`.

=== FILE: batch.dfy ===
/**
 The key/value map handed to `batchPut`, as the sequence of its entries in
 iteration order. A Java map has distinct keys, which `DistinctKeys` states.
 */
module Batch {
  import opened Values

  type Entry = (string, Val)

  /** The keys mentioned by a sequence of entries. */
  function KeysOf(es: seq<Entry>): set<string>
  {
    set i | 0 <= i < |es| :: es[i].0
  }

  /** No key occurs in two entries, as in any Java map. */
  predicate DistinctKeys(es: seq<Entry>)
  {
    forall i, j :: 0 <= i < j < |es| ==> es[i].0 != es[j].0
  }

  /** The map the entries denote (for repeated keys the later entry wins,
      which no Java map produces). */
  function ToMap(es: seq<Entry>): (m: map<string, Val>)
    ensures m.Keys == KeysOf(es)
    decreases |es|
  {
    if es == [] then map[]
    else
      var init := es[..|es| - 1];
      assert KeysOf(es) == KeysOf(init) + {es[|es| - 1].0} by {
        forall x | x in KeysOf(es) ensures x in KeysOf(init) + {es[|es| - 1].0} {
          var i :| 0 <= i < |es| && es[i].0 == x;
          if i < |es| - 1 {
            assert init[i] == es[i];
          }
        }
        forall x | x in KeysOf(init) ensures x in KeysOf(es) {
          var i :| 0 <= i < |init| && init[i].0 == x;
          assert es[i] == init[i];
        }
      }
      ToMap(init)[es[|es| - 1].0 := es[|es| - 1].1]
  }

  /** With distinct keys every entry's value is the one the map holds. */
  lemma {:induction false} ToMapHoldsEntry(es: seq<Entry>, i: int)
    requires DistinctKeys(es)
    requires 0 <= i < |es|
    ensures es[i].0 in ToMap(es) && ToMap(es)[es[i].0] == es[i].1
    decreases |es|
  {
    var init := es[..|es| - 1];
    if i < |es| - 1 {
      assert init[i] == es[i];
      ToMapHoldsEntry(init, i);
    }
  }
}

=== FILE: bloom.dfy ===
/**
 The Bloom filter guarding the tiers, as a set with no false negatives:
 `contains` holds for every added key and may hold for some others. Its
 bitset is itself a Redis key under the cache's prefix, so deleting that key
 empties the filter.
 */
module Bloom {

  /** `added` are the keys put in; `falsePositives` are keys the filter
      wrongly reports as present, kept fixed while keys are added. */
  datatype Filter = Filter(added: set<string>, falsePositives: set<string>)

  predicate Contains(f: Filter, k: string)
  {
    k in f.added || k in f.falsePositives
  }

  /** A filter with no bit set: what a fresh or deleted bitset reports. */
  const Empty: Filter := Filter({}, {})

  /** The filters a sequence of adds can reach from `Empty`: no bit is set
      before some key is added, so a false positive needs an added key. */
  predicate Valid(f: Filter)
  {
    f.added == {} ==> f.falsePositives == {}
  }

  /** Whether some bit is set, so that the bitset exists as a Redis key:
      some key was added. */
  predicate Occupied(f: Filter)
  {
    f.added != {}
  }

  /** In a reachable filter the bitset exists exactly when the filter
      reports some key. */
  lemma OccupiedIffReportsSome(f: Filter)
    requires Valid(f)
    ensures Occupied(f) <==> exists j :: Contains(f, j)
  {
    if f.added != {} {
      var j :| j in f.added;
      assert Contains(f, j);
    }
  }

  function Add(f: Filter, k: string): (r: Filter)
    ensures Valid(r) && Occupied(r)
    ensures Contains(r, k)
    ensures forall j :: Contains(f, j) ==> Contains(r, j)
    ensures forall j :: j != k ==> (Contains(r, j) <==> Contains(f, j))
  {
    f.(added := f.added + {k})
  }

  function AddAll(f: Filter, ks: set<string>): (r: Filter)
    ensures Valid(f) ==> Valid(r)
    ensures Occupied(r) <==> Occupied(f) || ks != {}
    ensures forall j :: Contains(r, j) <==> Contains(f, j) || j in ks
  {
    f.(added := f.added + ks)
  }
}

=== FILE: change.dfy ===
/**
 The change record passed from the caches to the reconciliation queue: an
 event kind, the key it concerns and an optional value.
 */
module CacheChange {
  import opened Values

  /** The four event kinds, in declaration order. */
  datatype EventType = LOOK | ADD | UPDATE | DELETE

  /** A change record. It is a plain value: two records are equal exactly
      when their kind, key and value are. */
  datatype Change = Change(eventType: EventType, key: string, value: Option<Val>)

  /** `createAddOrUpdateEvent(key, value)`: always an ADD record, never UPDATE. */
  function CreateAddOrUpdateEvent(k: string, v: Option<Val>): (r: Change)
    ensures r.eventType == ADD && r.eventType != UPDATE
    ensures r.key == k && r.value == v
  {
    Change(ADD, k, v)
  }

  /** `createDeleteEvent(key)`: a DELETE record with a null value. */
  function CreateDeleteEvent(k: string): (r: Change)
    ensures r.eventType == DELETE
    ensures r.key == k && r.value == None
  {
    Change(DELETE, k, None)
  }
}

=== FILE: change_queue.dfy ===
/**
 The reconciliation queue of change records: an unbounded FIFO that the
 producer appends to and the consumer takes from. The producer's `getQueue`
 hands the consumer the very same queue, modelled here by both sides acting
 on one `Channel` value.
 */
module ChangeQueue {
  import opened Values
  import opened CacheChange

  datatype Channel = Channel(queue: seq<Change>)

  /** `produce(cacheChange)`: appended at the tail (the queue has no bound,
      so it never refuses); an interrupted `put` is logged and drops the record. */
  function Produce(ch: Channel, rec: Change, interrupted: bool): (r: Channel)
    ensures interrupted ==> r == ch
    ensures !interrupted ==>
      && |r.queue| == |ch.queue| + 1
      && r.queue[..|ch.queue|] == ch.queue
      && r.queue[|ch.queue|] == rec
  {
    if interrupted then ch else Channel(ch.queue + [rec])
  }

  /** What `consume()` observes: the head record taken, a wait on an empty
      queue, or an interrupt that takes nothing. */
  datatype Taken = Took(record: Change, rest: Channel) | Blocked | Interrupted

  /** `consume()`: `take()` blocks on an empty queue; otherwise the head is
      removed and handed to `processCacheChange`, which only logs it; the
      rest keeps its order. */
  function Consume(ch: Channel, interrupted: bool): (t: Taken)
    ensures interrupted ==> t.Interrupted?
    ensures !interrupted && ch.queue == [] ==> t.Blocked?
    ensures !interrupted && ch.queue != [] ==>
      t.Took? && t.record == ch.queue[0] && t.rest.queue == ch.queue[1..]
  {
    if interrupted then Interrupted
    else if ch.queue == [] then Blocked
    else
      var rest := Channel(ch.queue[1..]);
      Took(ch.queue[0], rest)
  }

  /** One iteration of `run()`: a timed `poll` that yields nothing on an
      empty queue or an interrupt, else removes and processes the head. */
  function RunOnce(ch: Channel, interrupted: bool): (r: (Channel, Option<Change>))
    ensures interrupted || ch.queue == [] ==> r == (ch, None)
    ensures !interrupted && ch.queue != [] ==>
      r.1 == Some(ch.queue[0]) && r.0.queue == ch.queue[1..]
  {
    if interrupted || ch.queue == [] then (ch, None)
    else (Channel(ch.queue[1..]), Some(ch.queue[0]))
  }

  /** `n` uninterrupted iterations of `run()`: the channel left and the
      records processed, in processing order. */
  function Run(ch: Channel, n: nat): (r: (Channel, seq<Change>))
    ensures var k := if n < |ch.queue| then n else |ch.queue|;
      r.1 == ch.queue[..k] && r.0.queue == ch.queue[k..]
    decreases n
  {
    if n == 0 then (ch, [])
    else
      var step := RunOnce(ch, false);
      var more := Run(step.0, n - 1);
      match step.1
      case None => (more.0, more.1)
      case Some(rec) => (more.0, [rec] + more.1)
  }

  /** Records produced one after another, none interrupted. */
  function ProduceAll(ch: Channel, recs: seq<Change>): (r: Channel)
    ensures r.queue == ch.queue + recs
    decreases |recs|
  {
    if recs == [] then ch
    else
      assert ch.queue + recs == (ch.queue + [recs[0]]) + recs[1..];
      ProduceAll(Produce(ch, recs[0], false), recs[1..])
  }

  /** FIFO: whatever is produced after the records already queued is
      processed after them, each exactly once, in production order. */
  lemma {:induction false} ProcessedInProductionOrder(ch: Channel, recs: seq<Change>)
    ensures Run(ProduceAll(ch, recs), |ch.queue| + |recs|) == (Channel([]), ch.queue + recs)
  {
    var produced := ProduceAll(ch, recs);
    var r := Run(produced, |ch.queue| + |recs|);
    assert |produced.queue| == |ch.queue| + |recs|;
    assert r.1 == produced.queue[..|produced.queue|];
    assert r.0.queue == [];
    assert r.0 == Channel([]);
    assert r.1 == ch.queue + recs;
  }
}

=== FILE: custom_cache.dfy ===
/**
 The `manager/custom` two-tier cache. The local tier is keyed by the raw
 key and may hold a stored null; the shared tier and the Bloom filter use the
 full cache key. `get` answers through `lookup` (local, then the raw Redis
 value); the filter is consulted only when both tiers miss, and a key it
 already contains is not loaded again. Batch operations and shared-tier hits
 of `lookup` append change records.
 */
module CustomCache {
  import opened Values
  import opened CacheKeys
  import opened Strings
  import opened Bloom
  import opened Batch
  import opened CacheChange

  /** One cache instance with the shared tier it uses. `local` maps a raw key
      to its stored value (`None` is a stored null), `held` are the
      distributed leases held by the caller, `changes` the emitted records. */
  datatype Cache = Cache(
    app: string,
    name: string,
    local: map<string, Option<Val>>,
    shared: map<string, Val>,
    bloom: Filter,
    held: multiset<string>,
    changes: seq<Change>)

  datatype Outcome = Outcome(cache: Cache, result: Result<Option<Val>>, loaderCalls: nat)

  /** What the overridden `lookup` returns: nothing (null), or a store value,
      where `Found(None)` is the placeholder of a stored null. */
  datatype Found = NotFound | Found(value: Option<Val>)

  /** `cacheKey(k)`, the same scheme as the other version. */
  function Key(c: Cache, k: string): string
  {
    CacheKey(c.app, c.name, k)
  }

  /** The value held by the wrapper `super.get(key)` builds from `lookup`'s
      answer: null when `lookup` found nothing. */
  function Unwrap(f: Found): Option<Val>
  {
    if f.Found? then f.value else None
  }

  /** The Redis value at `ck`, or null. */
  function SharedValue(c: Cache, ck: string): Option<Val>
  {
    if ck in c.shared then Some(c.shared[ck]) else None
  }

  /** Only the local entry `k` and the shared entry `ck` may differ. */
  ghost predicate OnlyKeyChanged(c: Cache, d: Cache, k: string, ck: string)
  {
    && (forall j :: j != k ==> (j in d.local <==> j in c.local))
    && (forall j :: j != k && j in c.local ==> d.local[j] == c.local[j])
    && (forall j :: j != ck ==> (j in d.shared <==> j in c.shared))
    && (forall j :: j != ck && j in c.shared ==> d.shared[j] == c.shared[j])
  }

  /** `lookup(key)`, which `super.get(key)` calls: the local entry (a stored
      null included); on a local miss the raw Redis value, sentinel included,
      with a LOOK record for the full key only when Redis has it. A Redis
      value the serializer cannot read throws before any record is made.
      Nothing is copied to local. */
  function Lookup(c: Cache, k: string): (r: (Cache, Result<Found>))
    ensures k in c.local ==> r == (c, Ok(Found(c.local[k])))
    ensures k !in c.local && Key(c, k) !in c.shared ==> r == (c, Ok(NotFound))
    ensures k !in c.local && Key(c, k) in c.shared && !Readable(c.shared[Key(c, k)]) ==>
      r == (c, Err(Unreadable))
    ensures k !in c.local && Key(c, k) in c.shared && Readable(c.shared[Key(c, k)]) ==>
      && r.1 == Ok(Found(Some(c.shared[Key(c, k)])))
      && r.0 == c.(changes := c.changes + [Change(LOOK, Key(c, k), None)])
    ensures r.1 == Ok(NotFound) <==> k !in c.local && Key(c, k) !in c.shared
    ensures r.0.local == c.local && r.0.shared == c.shared && r.0.bloom == c.bloom && r.0.held == c.held
  {
    var ck := Key(c, k);
    if k in c.local then (c, Ok(Found(c.local[k])))
    else if ck !in c.shared then (c, Ok(NotFound))
    else if !Readable(c.shared[ck]) then (c, Err(Unreadable))
    else (c.(changes := c.changes + [Change(LOOK, ck, None)]), Ok(Found(Some(c.shared[ck]))))
  }

  /** `super.get(key)` as the answer of a `get`: the value of the wrapper
      built from what `lookup` finds, or the exception `lookup` threw. */
  function ReadBack(c: Cache, k: string, calls: nat): (o: Outcome)
    ensures o.loaderCalls == calls
    ensures o.cache == Lookup(c, k).0
    ensures o.result.Err? <==> Lookup(c, k).1.Err?
    ensures o.result.Ok? ==> o.result.value == Unwrap(Lookup(c, k).1.value)
  {
    var (c1, f) := Lookup(c, k);
    match f
    case Err(e) => Outcome(c1, Err(e), calls)
    case Ok(found) => Outcome(c1, Ok(Unwrap(found)), calls)
  }

  /** The body of the lease-guarded block of `loadFromRedisOrLoadWithLoader`:
      re-check the filter, then read Redis, then call the loader. A Redis
      value the serializer cannot read throws from the read. A null load
      range-writes the sentinel string into Redis and stores a null locally.
      The block's own `value` is not what the caller returns. */
  function LoadUnderLease(c: Cache, k: string, loader: Loader): (o: Outcome)
    requires Key(c, k) in c.held
    ensures o.cache.held == c.held && o.cache.changes == c.changes
    ensures o.cache.app == c.app && o.cache.name == c.name
    ensures OnlyKeyChanged(c, o.cache, k, Key(c, k))
    ensures Contains(c.bloom, Key(c, k)) ==> o == Outcome(c, Ok(None), 0)
    ensures o.loaderCalls == 1 <==> !Contains(c.bloom, Key(c, k)) && Key(c, k) !in c.shared
    ensures o.loaderCalls <= 1
    ensures o.result.Err? <==>
      || (o.loaderCalls == 1 && loader.Throws?)
      || (!Contains(c.bloom, Key(c, k)) && Key(c, k) in c.shared && !Readable(c.shared[Key(c, k)]))
    ensures o.result.Err? ==> o.cache == c
    ensures o.loaderCalls == 0 ==> o.cache.bloom == c.bloom
    ensures var ck := Key(c, k);
      !Contains(c.bloom, ck) && ck in c.shared ==>
        && o.cache.shared == c.shared
        && (!Readable(c.shared[ck]) ==> o == Outcome(c, Err(Unreadable), 0))
        && (IsSentinel(c.shared[ck]) ==> o == Outcome(c, Ok(None), 0))
        && (Readable(c.shared[ck]) && !IsSentinel(c.shared[ck]) ==>
              k in o.cache.local && o.cache.local[k] == Some(c.shared[ck]))
    ensures var ck := Key(c, k);
      o.loaderCalls == 1 && !loader.Throws? ==>
        && ck in o.cache.shared && Contains(o.cache.bloom, ck) && k in o.cache.local
        && (loader.ReturnsNull? ==> o.cache.shared[ck] == WriteSentinelAt(None) && o.cache.local[k] == None)
        && (loader.Returns? ==> o.cache.shared[ck] == loader.v && o.cache.local[k] == Some(loader.v))
  {
    var ck := Key(c, k);
    if Contains(c.bloom, ck) then Outcome(c, Ok(None), 0)
    else if ck !in c.shared then
      match loader
      case Throws => Outcome(c, Err(LoadFailed(ck)), 1)
      case ReturnsNull =>
        Outcome(c.(shared := c.shared[ck := WriteSentinelAt(None)], bloom := Add(c.bloom, ck), local := c.local[k := None]),
                Ok(None), 1)
      case Returns(v) =>
        Outcome(c.(shared := c.shared[ck := v], bloom := Add(c.bloom, ck), local := c.local[k := Some(v)]),
                Ok(Some(v)), 1)
    else if !Readable(c.shared[ck]) then Outcome(c, Err(Unreadable), 0)
    else if IsSentinel(c.shared[ck]) then Outcome(c, Ok(None), 0)
    else Outcome(c.(local := c.local[k := Some(c.shared[ck])]), Ok(Some(c.shared[ck])), 0)
  }

  /** `loadFromRedisOrLoadWithLoader`: when the filter does not report the
      key, the lease is taken, the guarded block runs and the lease is
      released on every path. Unless the block threw, the answer is then read
      again through `super.get`, that is through `lookup`. */
  function LoadFromRedisOrLoader(c: Cache, k: string, loader: Loader): (o: Outcome)
    ensures o.cache.held == c.held
    ensures Contains(c.bloom, Key(c, k)) ==> o == ReadBack(c, k, 0)
    ensures o.result.Err? <==>
      if Contains(c.bloom, Key(c, k)) then Lookup(c, k).1.Err?
      else (Key(c, k) in c.shared && !Readable(c.shared[Key(c, k)])) || (Key(c, k) !in c.shared && loader.Throws?)
    ensures !Contains(c.bloom, Key(c, k)) && Key(c, k) !in c.shared && loader.Throws? ==>
      o == Outcome(c, Err(LoadFailed(Key(c, k))), 1)
    ensures var ck := Key(c, k);
      !Contains(c.bloom, ck) && ck in c.shared && !Readable(c.shared[ck]) ==> o == Outcome(c, Err(Unreadable), 0)
    ensures var ck := Key(c, k);
      k !in c.local && !Contains(c.bloom, ck) && ck in c.shared && IsSentinel(c.shared[ck]) ==>
        o == Outcome(Lookup(c, k).0, Ok(Some(c.shared[ck])), 0)
    ensures var ck := Key(c, k);
      !Contains(c.bloom, ck) && ck in c.shared && Readable(c.shared[ck]) && !IsSentinel(c.shared[ck]) ==>
        && o.result == Ok(Some(c.shared[ck])) && o.loaderCalls == 0
        && k in o.cache.local && o.cache.local[k] == Some(c.shared[ck])
        && o.cache.changes == c.changes
    ensures var ck := Key(c, k);
      !Contains(c.bloom, ck) && ck !in c.shared && !loader.Throws? ==>
        && o.loaderCalls == 1 && o.cache.changes == c.changes
        && ck in o.cache.shared && Contains(o.cache.bloom, ck) && k in o.cache.local
        && (loader.ReturnsNull? ==>
              o.result == Ok(None) && o.cache.shared[ck] == WriteSentinelAt(None) && o.cache.local[k] == None)
        && (loader.Returns? ==>
              o.result == Ok(Some(loader.v)) && o.cache.shared[ck] == loader.v && o.cache.local[k] == Some(loader.v))
  {
    var ck := Key(c, k);
    if Contains(c.bloom, ck) then ReadBack(c, k, 0)
    else
      var inner := LoadUnderLease(c.(held := c.held + multiset{ck}), k, loader);
      assert inner.cache.held - multiset{ck} == c.held;
      var released := inner.cache.(held := inner.cache.held - multiset{ck});
      if inner.result.Err? then Outcome(released, inner.result, inner.loaderCalls)
      else ReadBack(released, k, inner.loaderCalls)
  }

  /** `get(key, valueLoader)`: `super.get(key)`, i.e. `lookup`; only when that
      finds nothing, the filter-guarded load. */
  function Get(c: Cache, k: string, loader: Loader): (o: Outcome)
    ensures k in c.local ==> o == Outcome(c, Ok(c.local[k]), 0)
    ensures var ck := Key(c, k);
      k !in c.local && ck in c.shared && Readable(c.shared[ck]) ==>
        o == Outcome(c.(changes := c.changes + [Change(LOOK, ck, None)]), Ok(Some(c.shared[ck])), 0)
    ensures var ck := Key(c, k);
      k !in c.local && ck in c.shared && !Readable(c.shared[ck]) ==> o == Outcome(c, Err(Unreadable), 0)
    ensures k !in c.local && Key(c, k) !in c.shared && Contains(c.bloom, Key(c, k)) ==>
      o == Outcome(c, Ok(None), 0)
    ensures o.cache.held == c.held && o.cache.app == c.app && o.cache.name == c.name
    ensures o.cache.changes == c.changes || o.cache.changes == c.changes + [Change(LOOK, Key(c, k), None)]
    ensures OnlyKeyChanged(c, o.cache, k, Key(c, k))
    ensures o.loaderCalls <= 1
    ensures o.loaderCalls == 1 <==>
      k !in c.local && Key(c, k) !in c.shared && !Contains(c.bloom, Key(c, k))
    ensures o.result.Err? <==>
      || (o.loaderCalls == 1 && loader.Throws?)
      || (k !in c.local && Key(c, k) in c.shared && !Readable(c.shared[Key(c, k)]))
    ensures o.result.Err? ==> o.cache == c
    ensures var ck := Key(c, k);
      o.loaderCalls == 1 && !loader.Throws? ==>
        && ck in o.cache.shared && Contains(o.cache.bloom, ck) && k in o.cache.local
        && o.cache.changes == c.changes
        && (loader.ReturnsNull? ==>
              o.result == Ok(None) && o.cache.shared[ck] == WriteSentinelAt(None) && o.cache.local[k] == None)
        && (loader.Returns? ==>
              o.result == Ok(Some(loader.v)) && o.cache.shared[ck] == loader.v && o.cache.local[k] == Some(loader.v))
  {
    var (c1, f) := Lookup(c, k);
    match f
    case Err(e) => Outcome(c1, Err(e), 0)
    case Ok(Found(v)) => Outcome(c1, Ok(v), 0)
    case Ok(NotFound) => LoadFromRedisOrLoader(c1, k, loader)
  }

  /** Wherever `lookup` finds something or throws, `get` is exactly the
      answer `super.get` reads back, with `lookup`'s effect and no loader
      call. */
  lemma GetAgreesWithLookup(c: Cache, k: string, loader: Loader)
    requires Lookup(c, k).1 != Ok(NotFound)
    ensures Get(c, k, loader) == ReadBack(c, k, 0)
  {
  }

  /** `put(key, value)`: a null range-writes the sentinel string into the
      Redis value and touches nothing else; a value goes to Redis, the
      filter and local. */
  function Put(c: Cache, k: string, v: Option<Val>): (r: Cache)
    ensures v.None? ==> r == c.(shared := r.shared)
    ensures v.None? ==>
      Key(c, k) in r.shared && r.shared[Key(c, k)] == WriteSentinelAt(SharedValue(c, Key(c, k)))
    ensures v.Some? ==>
      && Key(c, k) in r.shared && r.shared[Key(c, k)] == v.value
      && Contains(r.bloom, Key(c, k))
      && k in r.local && r.local[k] == v
    ensures forall j :: Contains(c.bloom, j) ==> Contains(r.bloom, j)
    ensures OnlyKeyChanged(c, r, k, Key(c, k))
    ensures r.held == c.held && r.changes == c.changes && r.app == c.app && r.name == c.name
  {
    var ck := Key(c, k);
    match v
    case None => c.(shared := c.shared[ck := WriteSentinelAt(SharedValue(c, ck))])
    case Some(x) => c.(shared := c.shared[ck := x], bloom := Add(c.bloom, ck), local := c.local[k := Some(x)])
  }

  /** Round trip: after `put(k, v)` a `get` returns `v`, calls no loader and
      changes nothing. */
  lemma PutThenGet(c: Cache, k: string, v: Val, loader: Loader)
    ensures Get(Put(c, k, Some(v)), k, loader) == Outcome(Put(c, k, Some(v)), Ok(Some(v)), 0)
  {
  }

  /** `put(k, null)` leaves an older local value in place, and `get` keeps
      serving it. */
  lemma PutNullKeepsLocalValue(c: Cache, k: string, loader: Loader)
    requires k in c.local
    ensures Get(Put(c, k, None), k, loader).result == Ok(c.local[k])
  {
  }

  /** Without a local entry, `get` after `put(k, null)` does not return null:
      `lookup` reads the range-written Redis value, which the serializer
      cannot read, so `get` throws, with no loader call and no record. */
  lemma PutNullThenGet(c: Cache, k: string, loader: Loader)
    requires k !in c.local
    ensures Get(Put(c, k, None), k, loader) == Outcome(Put(c, k, None), Err(Unreadable), 0)
  {
  }

  /** `evict(key)`: Redis loses the full key, local the raw key; the filter keeps it. */
  function Evict(c: Cache, k: string): (r: Cache)
    ensures Key(c, k) !in r.shared && k !in r.local
    ensures r.bloom == c.bloom && r.held == c.held && r.changes == c.changes
    ensures r.app == c.app && r.name == c.name
    ensures OnlyKeyChanged(c, r, k, Key(c, k))
  {
    c.(shared := c.shared - {Key(c, k)}, local := c.local - {k})
  }

  /** A key evicted while the filter still holds it is never reloaded: `get`
      returns null without calling the loader, however the loader would answer. */
  lemma FilteredKeyIsNeverReloaded(c: Cache, k: string, loader: Loader)
    requires Contains(c.bloom, Key(c, k))
    ensures Get(Evict(c, k), k, loader) == Outcome(Evict(c, k), Ok(None), 0)
  {
  }

  /** So a `put`, an `evict` and a `get` read back null, not the put value. */
  lemma PutEvictGetReadsNull(c: Cache, k: string, v: Val, loader: Loader)
    ensures Get(Evict(Put(c, k, Some(v)), k), k, loader).result == Ok(None)
  {
    FilteredKeyIsNeverReloaded(Put(c, k, Some(v)), k, loader);
  }

  /** `clear()`: the whole local tier and exactly the shared keys under the
      prefix, the filter's bitset among them, so the filter is emptied. */
  function Clear(c: Cache): (r: Cache)
    ensures r.local == map[]
    ensures forall j :: j in r.shared <==> j in c.shared && !StartsWith(j, Prefix(c.app, c.name))
    ensures forall j :: j in r.shared ==> r.shared[j] == c.shared[j]
    ensures forall j :: !Contains(r.bloom, j)
    ensures r.held == c.held && r.changes == c.changes && r.app == c.app && r.name == c.name
  {
    c.(local := map[], shared := RemovePrefixed(c.shared, Prefix(c.app, c.name)), bloom := Empty)
  }

  /** After `clear` neither tier holds the key and the filter is empty, so
      `get` calls the loader once, whatever was written before, and serves
      or fails with what it does. */
  lemma ClearThenGetLoads(c: Cache, k: string, loader: Loader)
    ensures var o := Get(Clear(c), k, loader);
      && o.loaderCalls == 1
      && (loader.Returns? ==> o.result == Ok(Some(loader.v)))
      && (loader.ReturnsNull? ==> o.result == Ok(None))
      && (loader.Throws? ==> o == Outcome(Clear(c), Err(LoadFailed(Key(c, k))), 1))
  {
  }

  /** The ADD records `batchPut` emits, one per entry in iteration order. */
  function AddRecords(es: seq<Entry>): (r: seq<Change>)
    requires DistinctKeys(es)
    ensures |r| == |es|
    ensures forall i :: 0 <= i < |es| ==> r[i] == CreateAddOrUpdateEvent(es[i].0, Some(es[i].1))
  {
    seq(|es|, i requires 0 <= i < |es| => Change(ADD, es[i].0, Some(es[i].1)))
  }

  /** The DELETE records `batchEvict` emits, one per key in iteration order. */
  function DeleteRecords(keys: seq<string>): (r: seq<Change>)
    ensures |r| == |keys|
    ensures forall i :: 0 <= i < |keys| ==> r[i] == CreateDeleteEvent(keys[i])
  {
    seq(|keys|, i requires 0 <= i < |keys| => Change(DELETE, keys[i], None))
  }

  /** `batchPut(map)`: local, Redis and the filter under the given keys, then
      one ADD record per entry. */
  function BatchPut(c: Cache, es: seq<Entry>): (r: Cache)
    requires DistinctKeys(es)
    ensures forall i :: 0 <= i < |es| ==>
      && es[i].0 in r.local && r.local[es[i].0] == Some(es[i].1)
      && es[i].0 in r.shared && r.shared[es[i].0] == es[i].1
      && Contains(r.bloom, es[i].0)
    ensures forall j :: j !in KeysOf(es) ==>
      (j in r.local <==> j in c.local) && (j in r.shared <==> j in c.shared)
    ensures forall j :: j !in KeysOf(es) && j in c.local ==> r.local[j] == c.local[j]
    ensures forall j :: j !in KeysOf(es) && j in c.shared ==> r.shared[j] == c.shared[j]
    ensures r.changes == c.changes + AddRecords(es)
    ensures r.held == c.held
  {
    var m := ToMap(es);
    assert forall i :: 0 <= i < |es| ==> es[i].0 in m && m[es[i].0] == es[i].1 by {
      forall i | 0 <= i < |es| ensures es[i].0 in m && m[es[i].0] == es[i].1 {
        ToMapHoldsEntry(es, i);
      }
    }
    var asLocal := map j | j in m :: Some(m[j]);
    c.(local := c.local + asLocal, shared := c.shared + m, bloom := AddAll(c.bloom, m.Keys),
       changes := c.changes + AddRecords(es))
  }

  /** `batchEvict(keys)`: local and Redis lose every key, then one DELETE
      record per key. The filter keeps them. */
  function BatchEvict(c: Cache, keys: seq<string>): (r: Cache)
    ensures forall i :: 0 <= i < |keys| ==> keys[i] !in r.local && keys[i] !in r.shared
    ensures forall j :: j !in keys ==>
      (j in r.local <==> j in c.local) && (j in r.shared <==> j in c.shared)
    ensures forall j :: j in r.local ==> r.local[j] == c.local[j]
    ensures forall j :: j in r.shared ==> r.shared[j] == c.shared[j]
    ensures r.changes == c.changes + DeleteRecords(keys)
    ensures r.bloom == c.bloom && r.held == c.held
  {
    var gone := set i | 0 <= i < |keys| :: keys[i];
    c.(local := c.local - gone, shared := c.shared - gone, changes := c.changes + DeleteRecords(keys))
  }

  /** Round trip: after `batchPut` with distinct keys, `get` of an entry's key
      returns its value from local, with no loader call and no record. */
  lemma BatchPutThenGet(c: Cache, es: seq<Entry>, i: int, loader: Loader)
    requires DistinctKeys(es)
    requires 0 <= i < |es|
    ensures Get(BatchPut(c, es), es[i].0, loader) == Outcome(BatchPut(c, es), Ok(Some(es[i].1)), 0)
  {
  }

  /** `batchEvict` removes the raw keys it is given from both tiers. A key
      whose raw and full spellings were both passed, and which the filter
      knows, then reads back null without a load. */
  lemma BatchEvictThenGet(c: Cache, keys: seq<string>, k: string, loader: Loader)
    requires k in keys && Key(c, k) in keys
    requires Contains(c.bloom, Key(c, k))
    ensures Get(BatchEvict(c, keys), k, loader) == Outcome(BatchEvict(c, keys), Ok(None), 0)
  {
  }
}

=== FILE: delayed_sync.dfy ===
/**
 The delayed-sync pipeline of the `manage/support` cache: a FIFO of raw
 keys still to be written to Redis, and the scheduled drain that reads each
 queued key through the cache and re-writes what it finds through `put`.
 */
module DelayedSync {
  import opened Values
  import Bloom
  import M = ManageCache

  /** The producer's concurrent queue of keys. */
  datatype SyncQueue = SyncQueue(keys: seq<string>)

  /** `addToDelayedSync(key)`: appended at the tail, no de-duplication. */
  function AddToDelayedSync(q: SyncQueue, k: string): (r: SyncQueue)
    ensures |r.keys| == |q.keys| + 1 && r.keys[..|q.keys|] == q.keys && r.keys[|q.keys|] == k
  {
    SyncQueue(q.keys + [k])
  }

  /** `poll()`: the head removed and returned, or null on an empty queue. */
  function Poll(q: SyncQueue): (r: (SyncQueue, Option<string>))
    ensures q.keys == [] ==> r == (q, None)
    ensures q.keys != [] ==> r.1 == Some(q.keys[0]) && r.0.keys == q.keys[1..]
  {
    if q.keys == [] then (q, None) else (SyncQueue(q.keys[1..]), Some(q.keys[0]))
  }

  /** A key added twice is polled twice. */
  lemma NoDeduplication(q: SyncQueue, k: string)
    requires q.keys == []
    ensures var q2 := AddToDelayedSync(AddToDelayedSync(q, k), k);
            var p1 := Poll(q2);
            var p2 := Poll(p1.0);
            p1.1 == Some(k) && p2.1 == Some(k) && p2.0.keys == []
  {
  }

  /** `syncKeyToRedis(key)`: the consumer reads the key through the cache
      object `getNativeCache()` hands back, the cache itself, whose read is
      `lookup`. A read that throws ends the call; nothing found is skipped;
      a value is re-written through `put`, so both tiers then hold it. */
  function SyncKeyToRedis(c: M.Cache, k: string): (r: Result<M.Cache>)
    ensures r.Err? <==> M.Lookup(c, k).Err?
    ensures r.Err? ==> r.error == Unreadable
    ensures M.Lookup(c, k) == Ok(None) ==> r == Ok(c)
    ensures r.Ok? && M.Lookup(c, k).value.Some? ==>
      && M.Key(c, k) in r.value.local && r.value.local[M.Key(c, k)] == M.Lookup(c, k).value.value
      && M.Key(c, k) in r.value.shared && r.value.shared[M.Key(c, k)] == M.Lookup(c, k).value.value
    ensures r.Ok? ==> r.value.app == c.app && r.value.name == c.name && r.value.held == c.held
  {
    match M.Lookup(c, k)
    case Err(e) => Err(e)
    case Ok(None) => Ok(c)
    case Ok(Some(v)) => Ok(M.Put(c, k, v))
  }

  /** A sync that does not throw changes only its own key's entries, and
      nothing `lookup` sees for any key, nor any filter answer. */
  lemma SyncKeyKeepsLookup(c: M.Cache, k: string)
    requires SyncKeyToRedis(c, k).Ok?
    ensures var r := SyncKeyToRedis(c, k).value;
      && M.OnlyKeyChanged(c, r, M.Key(c, k))
      && (forall j :: M.Lookup(r, j) == M.Lookup(c, j))
      && (forall j :: Bloom.Contains(r.bloom, j) <==> Bloom.Contains(c.bloom, j))
  {
  }

  /** Where a drain of a list of keys ends: the cache, how many keys were
      synced, and whether the next key's read threw, which ends `consume()`. */
  datatype Drain = Drain(cache: M.Cache, synced: nat, failed: bool)

  /** The keys synced in order until one read throws; a drain that failed
      stopped short of the end. */
  function SyncAll(c: M.Cache, ks: seq<string>): (r: Drain)
    ensures r.synced <= |ks|
    ensures !r.failed ==> r.synced == |ks|
    ensures r.failed ==> r.synced < |ks|
    decreases |ks|
  {
    if ks == [] then Drain(c, 0, false)
    else Extend(SyncAll(c, ks[..|ks| - 1]), ks[|ks| - 1])
  }

  /** One more key for a drain: nothing once it has failed, else one sync. */
  function Extend(d: Drain, k: string): Drain
  {
    if d.failed then d
    else
      match SyncKeyToRedis(d.cache, k)
      case Err(_) => d.(failed := true)
      case Ok(c2) => Drain(c2, d.synced + 1, false)
  }

  /** A drain of `ks + [k]` is the drain of `ks` extended by `k`. */
  lemma SyncAllSnoc(c: M.Cache, ks: seq<string>, k: string)
    ensures SyncAll(c, ks + [k]) == Extend(SyncAll(c, ks), k)
  {
    assert (ks + [k])[..|ks|] == ks;
  }

  /** A drain changes nothing `lookup` can see and no filter answer, and it
      stops exactly at the first key whose `lookup` throws. */
  lemma {:induction false} SyncAllKeepsLookup(c: M.Cache, ks: seq<string>)
    ensures var r := SyncAll(c, ks);
      && (r.failed ==> M.Lookup(c, ks[r.synced]).Err?)
      && (forall i :: 0 <= i < r.synced ==> M.Lookup(c, ks[i]).Ok?)
      && (forall j :: M.Lookup(r.cache, j) == M.Lookup(c, j))
      && (forall j :: Bloom.Contains(r.cache.bloom, j) <==> Bloom.Contains(c.bloom, j))
      && r.cache.app == c.app && r.cache.name == c.name && r.cache.held == c.held
    decreases |ks|
  {
    if ks != [] {
      var init := ks[..|ks| - 1];
      SyncAllKeepsLookup(c, init);
      var d := SyncAll(c, init);
      forall i | 0 <= i < d.synced ensures init[i] == ks[i] { }
      if !d.failed && SyncKeyToRedis(d.cache, ks[|ks| - 1]).Ok? {
        SyncKeyKeepsLookup(d.cache, ks[|ks| - 1]);
      }
    }
  }

  /** A drain fails exactly when some listed key's `lookup` throws. */
  lemma SyncAllFailsIffSomeReadThrows(c: M.Cache, ks: seq<string>)
    ensures SyncAll(c, ks).failed <==> exists i :: 0 <= i < |ks| && M.Lookup(c, ks[i]).Err?
  {
    var d := SyncAll(c, ks);
    SyncAllKeepsLookup(c, ks);
    if exists i :: 0 <= i < |ks| && M.Lookup(c, ks[i]).Err? {
      var i :| 0 <= i < |ks| && M.Lookup(c, ks[i]).Err?;
      assert !(i < d.synced);
    }
  }

  /** Once a drain has failed, further keys change nothing. */
  lemma {:induction false} FailedDrainStops(c: M.Cache, ks: seq<string>, more: seq<string>)
    requires SyncAll(c, ks).failed
    ensures SyncAll(c, ks + more) == SyncAll(c, ks)
    decreases |more|
  {
    if more == [] {
      assert ks + more == ks;
    } else {
      var init := more[..|more| - 1];
      assert ks + more == (ks + init) + [more[|more| - 1]];
      FailedDrainStops(c, ks, init);
      SyncAllSnoc(c, ks + init, more[|more| - 1]);
    }
  }

  /** After a drain, each synced key that `lookup` answered with a value is
      held by both tiers with that value. */
  lemma {:induction false} SyncAllAgrees(c: M.Cache, ks: seq<string>, i: int)
    requires 0 <= i < SyncAll(c, ks).synced
    requires M.Lookup(c, ks[i]).Ok? && M.Lookup(c, ks[i]).value.Some?
    ensures var r := SyncAll(c, ks).cache;
            var ck := M.Key(c, ks[i]);
            && ck in r.local && r.local[ck] == M.Lookup(c, ks[i]).value.value
            && ck in r.shared && r.shared[ck] == M.Lookup(c, ks[i]).value.value
    decreases |ks|
  {
    var init := ks[..|ks| - 1];
    var before := SyncAll(c, init);
    var last := ks[|ks| - 1];
    SyncAllKeepsLookup(c, init);
    if i < |ks| - 1 && i < before.synced {
      assert init[i] == ks[i];
      SyncAllAgrees(c, init, i);
      if !before.failed && SyncKeyToRedis(before.cache, last).Ok? {
        SyncKeyKeepsLookup(before.cache, last);
      }
      if !before.failed && M.Key(c, last) == M.Key(c, ks[i]) {
        assert M.Lookup(before.cache, last) == M.Lookup(c, last) == M.Lookup(c, ks[i]);
      }
    } else {
      assert M.Lookup(before.cache, last) == M.Lookup(c, last);
    }
  }

  /** One polled key takes a drain that has not failed either to a failure
      at that key, with the cache as it was, or one key further. */
  lemma DrainStep(c: M.Cache, taken: seq<string>, d: M.Cache, key: string)
    requires SyncAll(c, taken) == Drain(d, |taken|, false)
    ensures SyncKeyToRedis(d, key).Err? ==> SyncAll(c, taken + [key]) == Drain(d, |taken|, true)
    ensures SyncKeyToRedis(d, key).Ok? ==>
      SyncAll(c, taken + [key]) == Drain(SyncKeyToRedis(d, key).value, |taken| + 1, false)
  {
    SyncAllSnoc(c, taken, key);
  }

  /** A read that throws at `key` decides the drain of the whole queue
      `taken + [key] + rest`: the cache as it was before `key`. */
  lemma FailureEndsDrain(c: M.Cache, taken: seq<string>, d: M.Cache, key: string, rest: seq<string>)
    requires SyncAll(c, taken) == Drain(d, |taken|, false)
    requires SyncKeyToRedis(d, key).Err?
    ensures SyncAll(c, taken + [key] + rest) == Drain(d, |taken|, true)
  {
    DrainStep(c, taken, d, key);
    FailedDrainStops(c, taken + [key], rest);
  }

  /** `consume()`: poll until null, syncing each key, until a read throws.
      Every key taken is taken once in FIFO order and the cache is what the
      drain of the queue leaves. Without a failure the queue ends empty; with
      one, the key whose read threw has been taken but not synced, and the
      keys after it stay queued. */
  method Consume(q: SyncQueue, c: M.Cache) returns (q': SyncQueue, c': M.Cache, taken: seq<string>, failed: bool)
    ensures taken + q'.keys == q.keys
    ensures c' == SyncAll(c, q.keys).cache
    ensures failed == SyncAll(c, q.keys).failed
    ensures !failed ==> q'.keys == [] && taken == q.keys
    ensures failed ==> |taken| == SyncAll(c, q.keys).synced + 1
  {
    q', c', taken, failed := q, c, [], false;
    var polled := Poll(q');
    while polled.1.Some?
      invariant taken + q'.keys == q.keys
      invariant polled == Poll(q')
      invariant SyncAll(c, taken) == Drain(c', |taken|, false)
      decreases |q'.keys|
    {
      var key := polled.1.value;
      q' := polled.0;
      var r := SyncKeyToRedis(c', key);
      if r.Err? {
        FailureEndsDrain(c, taken, c', key, q'.keys);
        taken := taken + [key];
        failed := true;
        return;
      }
      DrainStep(c, taken, c', key);
      c' := r.value;
      taken := taken + [key];
      polled := Poll(q');
    }
    assert taken == q.keys by {
      assert q'.keys == [];
      assert taken + q'.keys == taken;
    }
  }
}

=== FILE: keys.dfy ===
/**
 Key namespacing of both cache versions: every shared-tier key of a cache is
 `<app>:RedisCaffeineCache:<cacheName>:<rawKey>`, and clearing a cache deletes
 the shared keys that start with `<app>:RedisCaffeineCache:<cacheName>:`.
 */
module CacheKeys {
  import opened Values
  import opened Strings

  /** The separator between key segments. */
  const KEY_SEGMENTATION: string := ":"

  /** The fixed segment naming this cache implementation. */
  const CACHE_PREFIX: string := "RedisCaffeineCache"

  /** The key prefix of the cache `name` inside application `app`. */
  function Prefix(app: string, name: string): string
  {
    app + KEY_SEGMENTATION + CACHE_PREFIX + KEY_SEGMENTATION + name + KEY_SEGMENTATION
  }

  /** The full shared-tier key of a raw key (the raw key's `toString()`). */
  function CacheKey(app: string, name: string, key: string): (r: string)
    ensures StartsWith(r, Prefix(app, name))
    ensures |r| == |Prefix(app, name)| + |key|
    ensures r[|Prefix(app, name)|..] == key
  {
    Prefix(app, name) + key
  }

  /** Within one cache the raw key can be read back from the full key, so
      distinct raw keys never share a shared-tier entry. */
  lemma CacheKeyInjective(app: string, name: string, k1: string, k2: string)
    ensures CacheKey(app, name, k1) == CacheKey(app, name, k2) <==> k1 == k2
  {
    if CacheKey(app, name, k1) == CacheKey(app, name, k2) {
      assert k1 == CacheKey(app, name, k1)[|Prefix(app, name)|..];
    }
  }

  /** The shared tier after the prefix scan and bulk delete of `clear`. */
  function RemovePrefixed(m: map<string, Val>, p: string): (r: map<string, Val>)
    ensures forall k :: k in r <==> k in m && !StartsWith(k, p)
    ensures forall k :: k in r ==> r[k] == m[k]
  {
    map k | k in m && !StartsWith(k, p) :: m[k]
  }

  /** Whether the prefix scan of `clear`/`invalidate` finds any key. */
  predicate HasPrefixed(m: map<string, Val>, p: string)
  {
    exists k :: k in m && StartsWith(k, p)
  }

  /** If the prefix of cache `a` is a prefix of the prefix of cache `b`,
      clearing `a` deletes every key of `b`. */
  lemma ClearReachesExtendingName(app: string, a: string, b: string, key: string)
    requires StartsWith(Prefix(app, b), Prefix(app, a))
    ensures StartsWith(CacheKey(app, b, key), Prefix(app, a))
  {
    StartsWithTrans(CacheKey(app, b, key), Prefix(app, a), Prefix(app, b));
  }

  /** If neither prefix extends the other, clearing `a` leaves every key of `b`. */
  lemma ClearSparesDivergingName(app: string, a: string, b: string, key: string)
    requires !StartsWith(Prefix(app, b), Prefix(app, a))
    requires !StartsWith(Prefix(app, a), Prefix(app, b))
    ensures !StartsWith(CacheKey(app, b, key), Prefix(app, a))
  {
  }

  /** A concrete collision: the cache named "A" clears the keys of the cache
      named "A:B", and the cache named "A:B" clears the key "B:x" of cache "A". */
  lemma ClearCollidesAcrossNames(app: string)
    ensures StartsWith(CacheKey(app, "A:B", "x"), Prefix(app, "A"))
    ensures StartsWith(CacheKey(app, "A", "B:x"), Prefix(app, "A:B"))
    ensures CacheKey(app, "A:B", "x") == CacheKey(app, "A", "B:x")
  {
    var pre := app + ":" + CACHE_PREFIX + ":";
    assert Prefix(app, "A") == pre + "A:";
    assert Prefix(app, "A:B") == pre + "A:B:";
    assert CacheKey(app, "A:B", "x") == pre + "A:B:x";
    assert CacheKey(app, "A", "B:x") == pre + "A:B:x";
    assert (pre + "A:B:x")[..|pre + "A:"|] == pre + "A:";
    assert (pre + "A:B:x")[..|pre + "A:B:"|] == pre + "A:B:";
  }
}

=== FILE: keyspace.dfy ===
/**
 The keyspace-event dispatcher: a Redis notification's channel is split on
 ':', its third segment names the action, and exactly one listener callback
 is chosen by exact match on that action. The key handed to the callback is
 the whole channel; the message body is not used.
 */
module KeyspaceEvents {
  import opened Values

  /** The listener call a message turns into. */
  datatype Callback =
    | OnPut(key: string, value: Option<Val>)
    | OnEvict(key: string)
    | OnExpire(key: string)
    | OnRenameFrom(key: string)
    | OnRenameTo(key: string, value: Option<Val>)
    | OnClear
    | OnError(message: string)

  /** Either one callback, or the index error of a short channel. */
  datatype Dispatch = Dispatched(callback: Callback) | IndexOutOfBounds

  function ColonCount(s: string): nat
  {
    if s == [] then 0 else (if s[0] == ':' then 1 else 0) + ColonCount(s[1..])
  }

  /** The segments joined back with ':'. */
  function Join(parts: seq<string>): string
    requires |parts| >= 1
  {
    if |parts| == 1 then parts[0] else parts[0] + ":" + Join(parts[1..])
  }

  /** Every ':'-separated segment, empty ones included. */
  function Segments(s: string): (parts: seq<string>)
    ensures |parts| == ColonCount(s) + 1
    ensures forall i :: 0 <= i < |parts| ==> ':' !in parts[i]
    ensures Join(parts) == s
  {
    if s == [] then [""]
    else
      var rest := Segments(s[1..]);
      if s[0] == ':' then
        assert s == ":" + s[1..];
        [""] + rest
      else
        var parts := [[s[0]] + rest[0]] + rest[1..];
        assert parts[1..] == rest[1..];
        assert s == [s[0]] + s[1..];
        parts
  }

  function DropTrailingEmpty(parts: seq<string>): (r: seq<string>)
    ensures |r| <= |parts| && r == parts[..|r|]
    ensures |r| > 0 ==> r[|r| - 1] != ""
    ensures forall i :: |r| <= i < |parts| ==> parts[i] == ""
  {
    if |parts| > 0 && parts[|parts| - 1] == "" then DropTrailingEmpty(parts[..|parts| - 1])
    else parts
  }

  /** Java's `String.split(":")`: the segments without trailing empty ones,
      or the whole string when it has no ':'. */
  function Split(s: string): (parts: seq<string>)
    ensures ':' !in s ==> parts == [s]
  {
    if ':' !in s then [s] else DropTrailingEmpty(Segments(s))
  }

  /** The actions the dispatcher recognises. */
  const KnownActions: set<string> := {"set", "del", "expired", "rename_from", "rename_to", "flushdb", "flushall"}

  function SharedGet(shared: map<string, Val>, key: string): Option<Val>
  {
    if key in shared then Some(shared[key]) else None
  }

  /** The key a callback carries, if any. */
  function KeyOf(cb: Callback): Option<string>
  {
    match cb
    case OnPut(k, _) => Some(k)
    case OnEvict(k) => Some(k)
    case OnExpire(k) => Some(k)
    case OnRenameFrom(k) => Some(k)
    case OnRenameTo(k, _) => Some(k)
    case OnClear => None
    case OnError(_) => None
  }

  /** The switch on the action: one callback per action, by exact match. */
  function Route(action: string, key: string, shared: map<string, Val>): (cb: Callback)
    ensures cb.OnPut? <==> action == "set"
    ensures cb.OnEvict? <==> action == "del"
    ensures cb.OnExpire? <==> action == "expired"
    ensures cb.OnRenameFrom? <==> action == "rename_from"
    ensures cb.OnRenameTo? <==> action == "rename_to"
    ensures cb.OnClear? <==> action == "flushdb" || action == "flushall"
    ensures cb.OnError? <==> action !in KnownActions
    ensures cb.OnError? ==> cb.message == "Received an unknown Redis key event: " + action
    ensures !cb.OnError? && !cb.OnClear? ==> KeyOf(cb) == Some(key)
    ensures cb.OnPut? || cb.OnRenameTo? ==> cb.value == SharedGet(shared, key)
  {
    if action == "set" then OnPut(key, SharedGet(shared, key))
    else if action == "del" then OnEvict(key)
    else if action == "expired" then OnExpire(key)
    else if action == "rename_from" then OnRenameFrom(key)
    else if action == "rename_to" then OnRenameTo(key, SharedGet(shared, key))
    else if action == "flushdb" || action == "flushall" then OnClear
    else OnError("Received an unknown Redis key event: " + action)
  }

  /** `onMessage(message, pattern)`. The body is read but plays no part; the
      database index computed from the second segment is unused. */
  function OnMessage(body: string, channel: string, shared: map<string, Val>): (d: Dispatch)
    ensures d.IndexOutOfBounds? <==> |Split(channel)| < 3
    ensures d.Dispatched? ==> d.callback == Route(Split(channel)[2], channel, shared)
  {
    var parts := Split(channel);
    if |parts| < 2 then IndexOutOfBounds
    else if |parts| < 3 then IndexOutOfBounds
    else Dispatched(Route(parts[2], channel, shared))
  }

  /** The body never changes the outcome. */
  lemma BodyIsIgnored(b1: string, b2: string, channel: string, shared: map<string, Val>)
    ensures OnMessage(b1, channel, shared) == OnMessage(b2, channel, shared)
  {
  }

  /** A channel with fewer than two ':' always fails with the index error,
      as a key-event channel such as `__keyevent@0__:del` does. */
  lemma ShortChannelFails(body: string, channel: string, shared: map<string, Val>)
    requires ColonCount(channel) < 2
    ensures OnMessage(body, channel, shared) == IndexOutOfBounds
  {
  }

  /** Trailing empty segments are dropped before indexing, so `a:b:` fails too. */
  lemma TrailingEmptyActionFails(body: string, a: string, b: string, shared: map<string, Val>)
    requires ':' !in a && ':' !in b
    ensures OnMessage(body, a + ":" + b + ":", shared) == IndexOutOfBounds
  {
    assert a + ":" + b + ":" == a + ":" + (b + ":");
    assert b + ":" == b + ":" + "";
    SegmentsAfterPlainPrefix(a, b + ":");
    SegmentsAfterPlainPrefix(b, "");
    assert Segments(a + ":" + b + ":") == [a, b, ""];
  }

  /** Splitting `a + ":" + rest` with a colon-free `a` yields `a` first. */
  lemma {:induction false} SegmentsAfterPlainPrefix(a: string, rest: string)
    requires ':' !in a
    ensures Segments(a + ":" + rest) == [a] + Segments(rest)
    decreases |a|
  {
    if a == [] {
      assert a + ":" + rest == ":" + rest;
      assert (":" + rest)[1..] == rest;
    } else {
      var s := a + ":" + rest;
      assert s[0] == a[0] && s[1..] == a[1..] + ":" + rest;
      SegmentsAfterPlainPrefix(a[1..], rest);
      assert [a[0]] + a[1..] == a;
    }
  }

  /** The first segment of `act + tail` is `act` when `tail` is empty or
      starts a new segment. */
  lemma {:induction false} SegmentsFirst(act: string, tail: string)
    requires ':' !in act
    requires tail == [] || tail[0] == ':'
    ensures Segments(act + tail)[0] == act
    decreases |act|
  {
    if act == [] {
      assert act + tail == tail;
    } else {
      var s := act + tail;
      assert s[1..] == act[1..] + tail;
      SegmentsFirst(act[1..], tail);
      assert [act[0]] + act[1..] == act;
    }
  }

  /** For a channel `a:b:act...` with a non-empty action segment `act`, the
      callback is the one `act` selects, keyed by the whole channel. */
  lemma ThirdSegmentIsAction(body: string, a: string, b: string, act: string, tail: string,
                             shared: map<string, Val>)
    requires ':' !in a && ':' !in b && ':' !in act && act != ""
    requires tail == [] || tail[0] == ':'
    ensures var channel := a + ":" + b + ":" + act + tail;
            OnMessage(body, channel, shared) == Dispatched(Route(act, channel, shared))
  {
    var channel := a + ":" + b + ":" + act + tail;
    assert channel == a + ":" + (b + ":" + (act + tail));
    SegmentsAfterPlainPrefix(a, b + ":" + (act + tail));
    SegmentsAfterPlainPrefix(b, act + tail);
    SegmentsFirst(act, tail);
    var segs := Segments(channel);
    assert segs[2] == act;
    assert ':' in channel by { assert channel[|a|] == ':'; }
    var parts := DropTrailingEmpty(segs);
    assert |parts| >= 3 && parts[2] == act;
  }
}

=== FILE: manage_cache.dfy ===
/**
 The `manage/support` two-tier cache: a Caffeine local tier and a Redis
 shared tier, both keyed by the full cache key, behind a Bloom filter that is
 consulted before every read. Each public operation is a function from the
 state to the next state and a result.
 */
module ManageCache {
  import opened Values
  import opened CacheKeys
  import opened Strings
  import opened Bloom
  import opened Batch

  /** A held lock: the in-process monitor of the double-check strategy or a
      distributed lease, each on a full cache key. */
  datatype Lock = Monitor(key: string) | Lease(key: string)

  /** One cache instance together with the shared tier it reads and writes.
      `local` is the Caffeine tier (an absent key is a null read), `shared`
      the Redis tier, `held` the locks this caller holds. */
  datatype Cache = Cache(
    app: string,
    name: string,
    local: map<string, Val>,
    shared: map<string, Val>,
    bloom: Filter,
    held: multiset<Lock>)

  /** What a `get` returns: the next state, the value or the exception, and
      how many times the loader ran. */
  datatype Outcome = Outcome(cache: Cache, result: Result<Option<Val>>, loaderCalls: nat)

  /** `cacheKey(k)`: the raw key under this cache's prefix. */
  function Key(c: Cache, k: string): string
  {
    CacheKey(c.app, c.name, k)
  }

  /** True when the caller holds some lock on `ck`. */
  predicate Guarded(c: Cache, ck: string)
  {
    Monitor(ck) in c.held || Lease(ck) in c.held
  }

  /** Nothing but the entry at `ck` differs between the two tiers of `c` and `d`. */
  ghost predicate OnlyKeyChanged(c: Cache, d: Cache, ck: string)
  {
    && (forall j :: j != ck ==> (j in d.local <==> j in c.local))
    && (forall j :: j != ck && j in c.local ==> d.local[j] == c.local[j])
    && (forall j :: j != ck ==> (j in d.shared <==> j in c.shared))
    && (forall j :: j != ck && j in c.shared ==> d.shared[j] == c.shared[j])
  }

  /** `loadFromRedisAndPutIntoCaffeine`, run while a lock on `ck` is held:
      a shared hit is promoted to local unless it is the sentinel; a shared
      value the serializer cannot read throws from the Redis read, which lies
      outside the block that rethrows, so it fails as it is; a shared
      miss calls the loader once. A loaded value goes to the shared tier, the
      filter and local. A null load range-writes the sentinel string at offset
      300 of the (absent) shared value and adds the key to the filter; then
      Caffeine refuses the null value, inside the block that rethrows as a
      load failure. */
  function LoadFromShared(c: Cache, ck: string, loader: Loader): (o: Outcome)
    requires Guarded(c, ck)
    ensures o.cache.held == c.held && o.cache.app == c.app && o.cache.name == c.name
    ensures OnlyKeyChanged(c, o.cache, ck)
    ensures ck in c.shared ==> o.loaderCalls == 0 && o.cache.bloom == c.bloom
    ensures ck in c.shared && !Readable(c.shared[ck]) ==> o == Outcome(c, Err(Unreadable), 0)
    ensures ck in c.shared && IsSentinel(c.shared[ck]) ==> o == Outcome(c, Ok(None), 0)
    ensures ck in c.shared && Readable(c.shared[ck]) && !IsSentinel(c.shared[ck]) ==>
      && o.result == Ok(Some(c.shared[ck]))
      && ck in o.cache.local && o.cache.local[ck] == c.shared[ck]
      && o.cache.shared == c.shared
    ensures ck !in c.shared ==> o.loaderCalls == 1
    ensures ck !in c.shared && loader.Throws? ==> o == Outcome(c, Err(LoadFailed(ck)), 1)
    ensures ck !in c.shared && loader.ReturnsNull? ==>
      && o.result == Err(LoadFailed(ck))
      && ck in o.cache.shared && o.cache.shared[ck] == WriteSentinelAt(None)
      && Contains(o.cache.bloom, ck)
      && o.cache.local == c.local
    ensures ck !in c.shared && loader.Returns? ==>
      && o.result == Ok(Some(loader.v))
      && ck in o.cache.shared && o.cache.shared[ck] == loader.v
      && ck in o.cache.local && o.cache.local[ck] == loader.v
      && Contains(o.cache.bloom, ck)
  {
    if ck !in c.shared then
      match loader
      case Throws => Outcome(c, Err(LoadFailed(ck)), 1)
      case ReturnsNull =>
        Outcome(c.(shared := c.shared[ck := WriteSentinelAt(None)], bloom := Add(c.bloom, ck)), Err(LoadFailed(ck)), 1)
      case Returns(v) =>
        Outcome(c.(shared := c.shared[ck := v], bloom := Add(c.bloom, ck), local := c.local[ck := v]),
                Ok(Some(v)), 1)
    else if !Readable(c.shared[ck]) then
      Outcome(c, Err(Unreadable), 0)
    else if IsSentinel(c.shared[ck]) then
      Outcome(c, Ok(None), 0)
    else
      Outcome(c.(local := c.local[ck := c.shared[ck]]), Ok(Some(c.shared[ck])), 0)
  }

  /** The critical section of `get`: re-check the local tier, then load. */
  function RecheckThenLoad(c: Cache, ck: string, loader: Loader): (o: Outcome)
    requires Guarded(c, ck)
    ensures o.cache.held == c.held
    ensures ck in c.local ==> o == Outcome(c, Ok(Some(c.local[ck])), 0)
    ensures ck !in c.local ==> o == LoadFromShared(c, ck, loader)
  {
    if ck in c.local then Outcome(c, Ok(Some(c.local[ck])), 0)
    else LoadFromShared(c, ck, loader)
  }

  /** `get(key, valueLoader)`. `contended` is the answer of the lock table's
      `isLocked`: true takes the in-process monitor, false the distributed
      lease; both run the same critical section and release the lock after it. */
  function Get(c: Cache, k: string, loader: Loader, contended: bool): (o: Outcome)
    ensures !Contains(c.bloom, Key(c, k)) ==> o == Outcome(c, Ok(None), 0)
    ensures Contains(c.bloom, Key(c, k)) && Key(c, k) in c.local ==>
      o == Outcome(c, Ok(Some(c.local[Key(c, k)])), 0)
    ensures o.cache.held == c.held
    ensures o.cache.app == c.app && o.cache.name == c.name
    ensures OnlyKeyChanged(c, o.cache, Key(c, k))
    ensures o.loaderCalls == 1 <==>
      Contains(c.bloom, Key(c, k)) && Key(c, k) !in c.local && Key(c, k) !in c.shared
    ensures o.loaderCalls <= 1
    ensures o.result.Err? <==>
      || (o.loaderCalls == 1 && !loader.Returns?)
      || (&& Contains(c.bloom, Key(c, k)) && Key(c, k) !in c.local && Key(c, k) in c.shared
          && !Readable(c.shared[Key(c, k)]))
    ensures o.result.Err? && o.loaderCalls == 1 ==>
      o.result.error == LoadFailed(Key(c, k)) && o.cache.local == c.local
    ensures o.result.Err? && o.loaderCalls == 0 ==> o == Outcome(c, Err(Unreadable), 0)
    ensures o.result.Err? && loader.Throws? ==> o.cache == c
    ensures forall j :: Contains(c.bloom, j) ==> Contains(o.cache.bloom, j)
  {
    var ck := Key(c, k);
    if !Contains(c.bloom, ck) then Outcome(c, Ok(None), 0)
    else if ck in c.local then Outcome(c, Ok(Some(c.local[ck])), 0)
    else
      var lock := if contended then Monitor(ck) else Lease(ck);
      var inner := RecheckThenLoad(c.(held := c.held + multiset{lock}), ck, loader);
      assert inner.cache.held - multiset{lock} == c.held;
      inner.(cache := inner.cache.(held := inner.cache.held - multiset{lock}))
  }

  /** Which lock `get` takes does not change anything it does. */
  lemma GetIgnoresLockChoice(c: Cache, k: string, loader: Loader)
    ensures Get(c, k, loader, true) == Get(c, k, loader, false)
  {
  }

  /** `lookup(key)`: the filter, then local, then the raw shared value (the
      sentinel is not translated here), whose read throws when the serializer
      cannot read it; no load and no state change. */
  function Lookup(c: Cache, k: string): (r: Result<Option<Val>>)
    ensures !Contains(c.bloom, Key(c, k)) ==> r == Ok(None)
    ensures r == Ok(None) <==> !Contains(c.bloom, Key(c, k)) || (Key(c, k) !in c.local && Key(c, k) !in c.shared)
    ensures Contains(c.bloom, Key(c, k)) && Key(c, k) in c.local ==> r == Ok(Some(c.local[Key(c, k)]))
    ensures r.Ok? && r.value.Some? && Key(c, k) !in c.local ==>
      Key(c, k) in c.shared && r.value.value == c.shared[Key(c, k)]
    ensures r.Err? <==>
      && Contains(c.bloom, Key(c, k)) && Key(c, k) !in c.local && Key(c, k) in c.shared
      && !Readable(c.shared[Key(c, k)])
    ensures r.Err? ==> r.error == Unreadable
  {
    var ck := Key(c, k);
    if !Contains(c.bloom, ck) then Ok(None)
    else if ck in c.local then Ok(Some(c.local[ck]))
    else if ck !in c.shared then Ok(None)
    else if !Readable(c.shared[ck]) then Err(Unreadable)
    else Ok(Some(c.shared[ck]))
  }

  /** Where either tier answers, `get` returns what `lookup` sees, with the
      sentinel read as null, and fails where `lookup` fails, without
      changing anything; it never calls the loader. */
  lemma LookupAgreesWithGet(c: Cache, k: string, loader: Loader, contended: bool)
    requires Key(c, k) in c.local || Key(c, k) in c.shared || !Contains(c.bloom, Key(c, k))
    ensures Get(c, k, loader, contended).loaderCalls == 0
    ensures Lookup(c, k).Err? ==> Get(c, k, loader, contended) == Outcome(c, Lookup(c, k), 0)
    ensures Lookup(c, k).Ok? && Lookup(c, k).value.Some? && IsSentinel(Lookup(c, k).value.value)
            && Key(c, k) !in c.local ==>
      Get(c, k, loader, contended).result == Ok(None)
    ensures Lookup(c, k).Ok? && (Lookup(c, k).value.None? || Key(c, k) in c.local || !IsSentinel(Lookup(c, k).value.value)) ==>
      Get(c, k, loader, contended).result == Lookup(c, k)
  {
  }

  /** `put(key, value)`: both tiers and the filter. */
  function Put(c: Cache, k: string, v: Val): (r: Cache)
    ensures Key(c, k) in r.local && r.local[Key(c, k)] == v
    ensures Key(c, k) in r.shared && r.shared[Key(c, k)] == v
    ensures Contains(r.bloom, Key(c, k))
    ensures forall j :: Contains(c.bloom, j) ==> Contains(r.bloom, j)
    ensures OnlyKeyChanged(c, r, Key(c, k))
    ensures r.held == c.held && r.app == c.app && r.name == c.name
  {
    var ck := Key(c, k);
    c.(local := c.local[ck := v], shared := c.shared[ck := v], bloom := Add(c.bloom, ck))
  }

  /** Round trip: after `put(k, v)` a `get` returns `v` with any loader,
      calling none, and changes nothing. */
  lemma PutThenGet(c: Cache, k: string, v: Val, loader: Loader, contended: bool)
    ensures Get(Put(c, k, v), k, loader, contended) == Outcome(Put(c, k, v), Ok(Some(v)), 0)
  {
  }

  /** A genuine value equal to the sentinel string reads back as null once
      the local copy is gone (Caffeine expiry or another process's eviction). */
  lemma SentinelValueReadsBackAsNull(c: Cache, k: string, v: Val, loader: Loader, contended: bool)
    requires IsSentinel(v)
    ensures var p := Put(c, k, v);
            var d := p.(local := p.local - {Key(c, k)});
            Get(d, k, loader, contended) == Outcome(d, Ok(None), 0)
  {
  }

  /** No penetration guard: a load that produced null makes that `get`
      fail, and what it left in Redis is not the sentinel but bytes the
      serializer cannot read, so the next `get` fails on the Redis read,
      without calling its loader and without changing anything. */
  lemma NullLoadIsNotRemembered(c: Cache, k: string, l1: Loader, l2: Loader, p1: bool, p2: bool)
    requires Contains(c.bloom, Key(c, k)) && Key(c, k) !in c.local && Key(c, k) !in c.shared
    requires l1.ReturnsNull?
    ensures var o1 := Get(c, k, l1, p1);
            var o2 := Get(o1.cache, k, l2, p2);
            && o1.loaderCalls == 1 && o1.result == Err(LoadFailed(Key(c, k)))
            && o2 == Outcome(o1.cache, Err(Unreadable), 0)
  {
  }

  /** A successful load is visible to the next `get`, which calls no loader. */
  lemma LoadedValueIsServed(c: Cache, k: string, v: Val, l2: Loader, p1: bool, p2: bool)
    requires Contains(c.bloom, Key(c, k)) && Key(c, k) !in c.local && Key(c, k) !in c.shared
    ensures var o1 := Get(c, k, Returns(v), p1);
            && o1.result == Ok(Some(v))
            && Get(o1.cache, k, l2, p2) == Outcome(o1.cache, Ok(Some(v)), 0)
  {
  }

  /** `putIfAbsent(key, value)`: decided by the local tier alone; returns
      the existing value, or the new one (never null) after writing local and,
      only when Redis lacks the key, the shared tier. The filter is untouched. */
  function PutIfAbsent(c: Cache, k: string, v: Val): (r: (Cache, Option<Val>))
    ensures Key(c, k) in c.local ==> r == (c, Some(c.local[Key(c, k)]))
    ensures Key(c, k) !in c.local ==>
      && r.1 == Some(v)
      && Key(c, k) in r.0.local && r.0.local[Key(c, k)] == v
      && Key(c, k) in r.0.shared
      && (Key(c, k) in c.shared ==> r.0.shared[Key(c, k)] == c.shared[Key(c, k)])
      && (Key(c, k) !in c.shared ==> r.0.shared[Key(c, k)] == v)
    ensures r.0.bloom == c.bloom && r.0.held == c.held
    ensures OnlyKeyChanged(c, r.0, Key(c, k))
  {
    var ck := Key(c, k);
    if ck in c.local then (c, Some(c.local[ck]))
    else
      var shared' := if ck in c.shared then c.shared else c.shared[ck := v];
      (c.(local := c.local[ck := v], shared := shared'), Some(v))
  }

  /** The two tiers can disagree after `putIfAbsent`: local takes the new
      value while Redis keeps its old one. */
  lemma PutIfAbsentDiverges(c: Cache, k: string, v: Val)
    requires Key(c, k) !in c.local && Key(c, k) in c.shared && c.shared[Key(c, k)] != v
    ensures var d := PutIfAbsent(c, k, v).0;
            d.local[Key(c, k)] != d.shared[Key(c, k)]
  {
  }

  /** What `get` sees after `putIfAbsent`: the value `putIfAbsent` returned
      when the filter knows the key, and null otherwise, because
      `putIfAbsent` never adds to the filter. No loader runs either way. */
  lemma PutIfAbsentThenGet(c: Cache, k: string, v: Val, loader: Loader, contended: bool)
    ensures var r := PutIfAbsent(c, k, v);
            var o := Get(r.0, k, loader, contended);
            && o.loaderCalls == 0 && o.cache == r.0
            && (Contains(c.bloom, Key(c, k)) ==> o.result == Ok(r.1))
            && (!Contains(c.bloom, Key(c, k)) ==> o.result == Ok(None))
  {
  }

  /** `evict(key)`: both tiers lose the key; the filter keeps it. */
  function Evict(c: Cache, k: string): (r: Cache)
    ensures Key(c, k) !in r.local && Key(c, k) !in r.shared
    ensures r.bloom == c.bloom && r.held == c.held && r.app == c.app && r.name == c.name
    ensures OnlyKeyChanged(c, r, Key(c, k))
  {
    var ck := Key(c, k);
    c.(local := c.local - {ck}, shared := c.shared - {ck})
  }

  /** Because the filter keeps an evicted key, the next `get` reaches the loader. */
  lemma EvictThenGetLoads(c: Cache, k: string, loader: Loader, contended: bool)
    requires Contains(c.bloom, Key(c, k))
    ensures Get(Evict(c, k), k, loader, contended).loaderCalls == 1
  {
  }

  /** `evictIfPresent(key)`: true iff some tier held the key; afterwards neither does. */
  function EvictIfPresent(c: Cache, k: string): (r: (Cache, bool))
    ensures r.1 <==> Key(c, k) in c.local || Key(c, k) in c.shared
    ensures Key(c, k) !in r.0.local && Key(c, k) !in r.0.shared
    ensures r.0.bloom == c.bloom && r.0.held == c.held
    ensures OnlyKeyChanged(c, r.0, Key(c, k))
  {
    var ck := Key(c, k);
    var inLocal := ck in c.local;
    var inShared := ck in c.shared;
    (c.(local := c.local - {ck}, shared := c.shared - {ck}), inLocal || inShared)
  }

  /** `evictIfPresent` leaves the same state as `evict`. */
  lemma EvictIfPresentIsEvict(c: Cache, k: string)
    ensures EvictIfPresent(c, k).0 == Evict(c, k)
  {
  }

  /** `clear()`: the whole local tier, and exactly the shared keys under this
      cache's prefix. The filter's bitset lies under that prefix too, so the
      filter is emptied. */
  function Clear(c: Cache): (r: Cache)
    ensures r.local == map[]
    ensures forall j :: j in r.shared <==> j in c.shared && !StartsWith(j, Prefix(c.app, c.name))
    ensures forall j :: j in r.shared ==> r.shared[j] == c.shared[j]
    ensures forall j :: !Contains(r.bloom, j)
    ensures r.held == c.held && r.app == c.app && r.name == c.name
  {
    c.(local := map[], shared := RemovePrefixed(c.shared, Prefix(c.app, c.name)), bloom := Empty)
  }

  /** After `clear` the filter rejects every key, so `get` reads null
      without calling the loader, whatever was written before. */
  lemma ClearThenGetReadsNull(c: Cache, k: string, loader: Loader, contended: bool)
    ensures Get(Clear(c), k, loader, contended) == Outcome(Clear(c), Ok(None), 0)
  {
  }

  /** `invalidate()`: the effect of `clear`; true iff the prefix scan found a
      key, a cached entry or the filter's bitset. */
  function Invalidate(c: Cache): (r: (Cache, bool))
    ensures r.0 == Clear(c)
    ensures r.1 <==> (exists j :: j in c.shared && StartsWith(j, Prefix(c.app, c.name))) || Occupied(c.bloom)
    ensures Valid(c.bloom) ==>
      (r.1 <==> (exists j :: j in c.shared && j !in r.0.shared) || (exists j :: Contains(c.bloom, j)))
  {
    assert Valid(c.bloom) ==> (Occupied(c.bloom) <==> exists j :: Contains(c.bloom, j)) by {
      if Valid(c.bloom) {
        OccupiedIffReportsSome(c.bloom);
      }
    }
    (Clear(c), HasPrefixed(c.shared, Prefix(c.app, c.name)) || Occupied(c.bloom))
  }

  /** `batchPut(map)`: the entries, under the full keys they carry, go to
      local, then to Redis in one transaction, then to the filter. */
  function BatchPut(c: Cache, es: seq<Entry>): (r: Cache)
    requires DistinctKeys(es)
    ensures forall i :: 0 <= i < |es| ==>
      && es[i].0 in r.local && r.local[es[i].0] == es[i].1
      && es[i].0 in r.shared && r.shared[es[i].0] == es[i].1
      && Contains(r.bloom, es[i].0)
    ensures forall j :: j !in KeysOf(es) ==>
      (j in r.local <==> j in c.local) && (j in r.shared <==> j in c.shared)
    ensures forall j :: j !in KeysOf(es) && j in c.local ==> r.local[j] == c.local[j]
    ensures forall j :: j !in KeysOf(es) && j in c.shared ==> r.shared[j] == c.shared[j]
    ensures forall j :: Contains(c.bloom, j) ==> Contains(r.bloom, j)
    ensures r.held == c.held
  {
    var m := ToMap(es);
    assert forall i :: 0 <= i < |es| ==> es[i].0 in m && m[es[i].0] == es[i].1 by {
      forall i | 0 <= i < |es| ensures es[i].0 in m && m[es[i].0] == es[i].1 {
        ToMapHoldsEntry(es, i);
      }
    }
    c.(local := c.local + m, shared := c.shared + m, bloom := AddAll(c.bloom, m.Keys))
  }

  /** A batch written under `cacheKey(k)` is what a later `get(k)` serves. */
  lemma BatchPutThenGet(c: Cache, k: string, v: Val, loader: Loader, contended: bool)
    ensures var d := BatchPut(c, [(Key(c, k), v)]);
            Get(d, k, loader, contended) == Outcome(d, Ok(Some(v)), 0)
  {
  }

  /** `batchEvict(keys)`: both tiers lose every listed key; the filter keeps them. */
  function BatchEvict(c: Cache, keys: seq<string>): (r: Cache)
    ensures forall i :: 0 <= i < |keys| ==> keys[i] !in r.local && keys[i] !in r.shared
    ensures forall j :: j !in keys ==>
      (j in r.local <==> j in c.local) && (j in r.shared <==> j in c.shared)
    ensures forall j :: j in r.local ==> r.local[j] == c.local[j]
    ensures forall j :: j in r.shared ==> r.shared[j] == c.shared[j]
    ensures r.bloom == c.bloom && r.held == c.held
  {
    var gone := set i | 0 <= i < |keys| :: keys[i];
    c.(local := c.local - gone, shared := c.shared - gone)
  }

  /** A batch-evicted full key that the filter knows sends the next `get`
      to the loader, as after `evict`. */
  lemma BatchEvictThenGetLoads(c: Cache, keys: seq<string>, k: string, loader: Loader, contended: bool)
    requires Key(c, k) in keys && Contains(c.bloom, Key(c, k))
    ensures Get(BatchEvict(c, keys), k, loader, contended).loaderCalls == 1
  {
  }

  /** A key local misses whose Redis value the serializer cannot read. */
  predicate UnreadableMiss(c: Cache, j: string)
  {
    j !in c.local && j in c.shared && !Readable(c.shared[j])
  }

  /** `batchGet(keys)`: the local hits, when every key is a local hit. Any
      miss sends the missed keys to Redis's multi-get, which throws if one of
      their values cannot be read; otherwise its list of values is cast to a
      map, and that cast fails. Nothing is copied to local. */
  function BatchGet(c: Cache, keys: seq<string>): (r: Result<map<string, Val>>)
    ensures r.Ok? <==> forall i :: 0 <= i < |keys| ==> keys[i] in c.local
    ensures r.Err? ==> r.error == ListIsNotMap || r.error == Unreadable
    ensures r == Err(Unreadable) <==> exists j :: j in keys && UnreadableMiss(c, j)
    ensures r.Ok? ==> forall j :: j in r.value <==> j in keys
    ensures r.Ok? ==> forall j :: j in r.value ==> r.value[j] == c.local[j]
  {
    var fromLocal := map j | j in keys && j in c.local :: c.local[j];
    var missed := seq(|keys|, i requires 0 <= i < |keys| => keys[i] !in fromLocal);
    if exists j :: j in keys && UnreadableMiss(c, j) then Err(Unreadable)
    else if true in missed then Err(ListIsNotMap)
    else
      assert forall i :: 0 <= i < |keys| ==> keys[i] in c.local by {
        forall i | 0 <= i < |keys| ensures keys[i] in c.local {
          assert missed[i] in missed;
        }
      }
      Ok(fromLocal)
  }

  /** A key held by Redis but not by local makes `batchGet` fail, on the
      cast or, for bytes it cannot read, on the multi-get itself, so a batch
      can only be read back while it is still in local. */
  lemma BatchGetFailsOnLocalMiss(c: Cache, hit: string, miss: string)
    requires hit in c.local && miss !in c.local && miss in c.shared
    ensures Readable(c.shared[miss]) ==> BatchGet(c, [hit, miss]) == Err(ListIsNotMap)
    ensures !Readable(c.shared[miss]) ==> BatchGet(c, [hit, miss]) == Err(Unreadable)
    ensures BatchGet(c, [hit]) == Ok(map[hit := c.local[hit]])
  {
    assert miss in [hit, miss];
    assert forall i :: 0 <= i < |[hit]| ==> [hit][i] in c.local;
    var r := BatchGet(c, [hit]);
    assert r.Ok?;
    forall j ensures j in r.value <==> j == hit {
      assert j in [hit] <==> j == hit;
    }
    assert r.value.Keys == {hit};
    assert r.value == map[hit := c.local[hit]];
  }

  /** What `batchPut` wrote is what `batchGet` reads back, while local holds it. */
  lemma BatchPutThenBatchGet(c: Cache, es: seq<Entry>)
    requires DistinctKeys(es)
    ensures var keys := seq(|es|, i requires 0 <= i < |es| => es[i].0);
            var r := BatchGet(BatchPut(c, es), keys);
            && r.Ok?
            && forall i :: 0 <= i < |es| ==> es[i].0 in r.value && r.value[es[i].0] == es[i].1
  {
    var keys := seq(|es|, i requires 0 <= i < |es| => es[i].0);
    var d := BatchPut(c, es);
    forall i | 0 <= i < |keys| ensures keys[i] in d.local {
      assert keys[i] == es[i].0;
    }
    forall i | 0 <= i < |es| ensures es[i].0 in keys && d.local[es[i].0] == es[i].1 {
      assert keys[i] == es[i].0;
    }
  }
}

=== FILE: node_converter.dfy ===
/** Node-address normalisation: every address handed to the client carries a
    `redis://` or `rediss://` scheme. */
module NodeConverter {
  import opened Strings

  const REDIS_PROTOCOL_PREFIX: string := "redis://"
  const REDISS_PROTOCOL_PREFIX: string := "rediss://"

  predicate HasProtocol(node: string)
  {
    StartsWith(node, REDIS_PROTOCOL_PREFIX) || StartsWith(node, REDISS_PROTOCOL_PREFIX)
  }

  /** One address: kept when it already has a scheme, else `redis://` is prepended. */
  function Normalize(node: string): (r: string)
    ensures HasProtocol(r)
    ensures HasProtocol(node) ==> r == node
    ensures !HasProtocol(node) ==> r == REDIS_PROTOCOL_PREFIX + node && r[|REDIS_PROTOCOL_PREFIX|..] == node
  {
    if !HasProtocol(node) then
      assert (REDIS_PROTOCOL_PREFIX + node)[..|REDIS_PROTOCOL_PREFIX|] == REDIS_PROTOCOL_PREFIX;
      REDIS_PROTOCOL_PREFIX + node
    else node
  }

  /** `convert(nodes)`: the list, in order, with each address normalised. */
  method Convert(nodes: seq<string>) returns (out: seq<string>)
    ensures |out| == |nodes|
    ensures forall i :: 0 <= i < |nodes| ==> out[i] == Normalize(nodes[i])
    ensures forall i :: 0 <= i < |out| ==> HasProtocol(out[i])
  {
    out := [];
    var j := 0;
    while j < |nodes|
      invariant 0 <= j <= |nodes|
      invariant |out| == j
      invariant forall i :: 0 <= i < j ==> out[i] == Normalize(nodes[i])
    {
      var node := nodes[j];
      if !StartsWith(node, REDIS_PROTOCOL_PREFIX) && !StartsWith(node, REDISS_PROTOCOL_PREFIX) {
        out := out + [REDIS_PROTOCOL_PREFIX + node];
      } else {
        out := out + [node];
      }
      j := j + 1;
    }
  }

  /** Converting an already converted list changes nothing. */
  lemma NormalizeIsIdempotent(node: string)
    ensures Normalize(Normalize(node)) == Normalize(node)
  {
  }

  /** A `rediss://` address is kept as is and not wrapped in `redis://`. */
  lemma SecureAddressKept(rest: string)
    ensures Normalize(REDISS_PROTOCOL_PREFIX + rest) == REDISS_PROTOCOL_PREFIX + rest
  {
    assert (REDISS_PROTOCOL_PREFIX + rest)[..|REDISS_PROTOCOL_PREFIX|] == REDISS_PROTOCOL_PREFIX;
  }
}

=== FILE: redis_config.dfy ===
/**
 Building the Redis client configuration for the three deployment modes
 (single server, cluster, sentinel) from the Redis connection properties,
 and choosing among them.
 */
module RedisConfig {
  import opened Values
  import opened Strings
  import NodeConverter

  const INT_MAX: int := 0x7fff_ffff

  /** The exceptions a builder can raise. */
  datatype BuildError =
    | IllegalState(message: string)
    | IllegalArgument(message: string)
    | NullDereference

  datatype Built<+T> = Done(value: T) | Thrown(error: BuildError)

  /** The sentinel and cluster sections; a node list left unconfigured is
      null (`None`). */
  datatype SentinelProps = SentinelProps(master: string, nodes: Option<seq<string>>)
  datatype ClusterProps = ClusterProps(nodes: Option<seq<string>>)

  /** The connection properties read by the builders; `timeoutMillis` is the
      configured timeout already in milliseconds, `None` when unset. */
  datatype RedisProps = RedisProps(
    host: string,
    port: int,
    ssl: bool,
    timeoutMillis: Option<int>,
    database: int,
    password: Option<string>,
    sentinel: Option<SentinelProps>,
    cluster: Option<ClusterProps>)

  /** The client configuration each builder produces. */
  datatype Config =
    | SingleServer(address: string, connectTimeout: int, database: int, password: Option<string>)
    | ClusterServers(nodeAddresses: seq<string>, connectTimeout: int, password: Option<string>)
    | SentinelServers(masterName: string, sentinelAddresses: seq<string>, database: int,
                      connectTimeout: int, password: Option<string>)

  const TOO_LARGE: string := "Redis timeout is too large to be represented as an int."
  const NEGATIVE: string := "Redis timeout cannot be negative."

  /** `getTimeout`, identical in all three builders: the millisecond timeout
      when it fits a non-negative int; the size check comes first. */
  function GetTimeout(p: RedisProps): (r: Built<int>)
    ensures p.timeoutMillis.None? <==> r == Thrown(NullDereference)
    ensures r.Done? <==> p.timeoutMillis.Some? && 0 <= p.timeoutMillis.value <= INT_MAX
    ensures r.Done? ==> r.value == p.timeoutMillis.value
    ensures r == Thrown(IllegalState(TOO_LARGE)) <==> p.timeoutMillis.Some? && p.timeoutMillis.value > INT_MAX
    ensures r == Thrown(IllegalArgument(NEGATIVE)) <==> p.timeoutMillis.Some? && p.timeoutMillis.value < 0
  {
    match p.timeoutMillis
    case None => Thrown(NullDereference)
    case Some(ms) =>
      if ms > INT_MAX then Thrown(IllegalState(TOO_LARGE))
      else if ms < 0 then Thrown(IllegalArgument(NEGATIVE))
      else Done(ms)
  }

  /** `getServerAddress`: scheme chosen by the ssl flag, then host, a colon and the port. */
  function ServerAddress(p: RedisProps): (a: string)
    ensures p.ssl ==> StartsWith(a, NodeConverter.REDISS_PROTOCOL_PREFIX)
    ensures !p.ssl ==> StartsWith(a, NodeConverter.REDIS_PROTOCOL_PREFIX)
    ensures NodeConverter.HasProtocol(a)
    ensures var pre := if p.ssl then NodeConverter.REDISS_PROTOCOL_PREFIX else NodeConverter.REDIS_PROTOCOL_PREFIX;
            a[|pre|..] == p.host + ":" + IntToString(p.port)
  {
    var pre := if p.ssl then NodeConverter.REDISS_PROTOCOL_PREFIX else NodeConverter.REDIS_PROTOCOL_PREFIX;
    var a := pre + p.host + ":" + IntToString(p.port);
    assert a[..|pre|] == pre;
    assert a[|pre|..] == p.host + ":" + IntToString(p.port);
    a
  }

  /** The single-server address is already normalised: converting it as a node changes nothing. */
  lemma ServerAddressIsNormal(p: RedisProps)
    ensures NodeConverter.Normalize(ServerAddress(p)) == ServerAddress(p)
  {
  }

  /** The single-server builder. */
  function BuildSingle(p: RedisProps): (r: Built<Config>)
    ensures GetTimeout(p).Thrown? ==> r == Thrown(GetTimeout(p).error)
    ensures GetTimeout(p).Done? ==>
      r == Done(SingleServer(ServerAddress(p), GetTimeout(p).value, p.database, p.password))
  {
    match GetTimeout(p)
    case Thrown(e) => Thrown(e)
    case Done(t) => Done(SingleServer(ServerAddress(p), t, p.database, p.password))
  }

  /** The node list in order, each address normalised. */
  function NormalizeAll(nodes: seq<string>): (out: seq<string>)
    ensures |out| == |nodes|
    ensures forall i :: 0 <= i < |nodes| ==> out[i] == NodeConverter.Normalize(nodes[i])
    decreases |nodes|
  {
    if nodes == [] then [] else [NodeConverter.Normalize(nodes[0])] + NormalizeAll(nodes[1..])
  }

  /** The cluster builder: without cluster properties the lookup of its nodes
      fails, and so does converting a null node list; the nodes are
      normalised before the timeout is read. */
  function BuildCluster(p: RedisProps): (r: Built<Config>)
    ensures p.cluster.None? || p.cluster.value.nodes.None? ==> r == Thrown(NullDereference)
    ensures p.cluster.Some? && p.cluster.value.nodes.Some? && GetTimeout(p).Thrown? ==>
      r == Thrown(GetTimeout(p).error)
    ensures r.Done? <==> p.cluster.Some? && p.cluster.value.nodes.Some? && GetTimeout(p).Done?
    ensures r.Done? ==>
      && r.value.ClusterServers?
      && |r.value.nodeAddresses| == |p.cluster.value.nodes.value|
      && (forall i :: 0 <= i < |p.cluster.value.nodes.value| ==>
            r.value.nodeAddresses[i] == NodeConverter.Normalize(p.cluster.value.nodes.value[i]))
      && r.value.connectTimeout == GetTimeout(p).value
      && r.value.password == p.password
  {
    match p.cluster
    case None => Thrown(NullDereference)
    case Some(cl) =>
      match cl.nodes
      case None => Thrown(NullDereference)
      case Some(given) =>
        var nodes := NormalizeAll(given);
        match GetTimeout(p)
        case Thrown(e) => Thrown(e)
        case Done(t) => Done(ClusterServers(nodes, t, p.password))
  }

  /** The sentinel builder: converting a null node list fails before the
      timeout is read. */
  function BuildSentinel(p: RedisProps): (r: Built<Config>)
    ensures p.sentinel.None? || p.sentinel.value.nodes.None? ==> r == Thrown(NullDereference)
    ensures p.sentinel.Some? && p.sentinel.value.nodes.Some? && GetTimeout(p).Thrown? ==>
      r == Thrown(GetTimeout(p).error)
    ensures r.Done? <==> p.sentinel.Some? && p.sentinel.value.nodes.Some? && GetTimeout(p).Done?
    ensures r.Done? ==>
      && r.value.SentinelServers?
      && r.value.masterName == p.sentinel.value.master
      && |r.value.sentinelAddresses| == |p.sentinel.value.nodes.value|
      && (forall i :: 0 <= i < |p.sentinel.value.nodes.value| ==>
            r.value.sentinelAddresses[i] == NodeConverter.Normalize(p.sentinel.value.nodes.value[i]))
      && r.value.database == p.database
      && r.value.connectTimeout == GetTimeout(p).value
      && r.value.password == p.password
  {
    match p.sentinel
    case None => Thrown(NullDereference)
    case Some(s) =>
      match s.nodes
      case None => Thrown(NullDereference)
      case Some(given) =>
        var nodes := NormalizeAll(given);
        match GetTimeout(p)
        case Thrown(e) => Thrown(e)
        case Done(t) => Done(SentinelServers(s.master, nodes, p.database, t, p.password))
  }

  /** Every address in a successfully built configuration carries a scheme. */
  lemma BuiltAddressesHaveProtocol(p: RedisProps)
    ensures BuildSingle(p).Done? ==> NodeConverter.HasProtocol(BuildSingle(p).value.address)
    ensures BuildCluster(p).Done? ==>
      forall a :: a in BuildCluster(p).value.nodeAddresses ==> NodeConverter.HasProtocol(a)
    ensures BuildSentinel(p).Done? ==>
      forall a :: a in BuildSentinel(p).value.sentinelAddresses ==> NodeConverter.HasProtocol(a)
  {
  }

  datatype Topology = SentinelMode | ClusterMode | SingleMode

  /** Which builder `selectConfig` uses: sentinel properties win over
      cluster properties, and a single server is the default. */
  function SelectBuilder(p: RedisProps): (t: Topology)
    ensures t == SentinelMode <==> p.sentinel.Some?
    ensures t == ClusterMode <==> p.sentinel.None? && p.cluster.Some?
    ensures t == SingleMode <==> p.sentinel.None? && p.cluster.None?
  {
    if p.sentinel.Some? then SentinelMode
    else if p.cluster.Some? then ClusterMode
    else SingleMode
  }

  /** `selectConfig()`. */
  function SelectConfig(p: RedisProps): (r: Built<Config>)
    ensures SelectBuilder(p) == SentinelMode ==> r == BuildSentinel(p)
    ensures SelectBuilder(p) == ClusterMode ==> r == BuildCluster(p)
    ensures SelectBuilder(p) == SingleMode ==> r == BuildSingle(p)
  {
    match SelectBuilder(p)
    case SentinelMode => BuildSentinel(p)
    case ClusterMode => BuildCluster(p)
    case SingleMode => BuildSingle(p)
  }

  /** The node list the selected builder converts is null. */
  predicate SelectedNodesNull(p: RedisProps)
  {
    || (p.sentinel.Some? && p.sentinel.value.nodes.None?)
    || (p.sentinel.None? && p.cluster.Some? && p.cluster.value.nodes.None?)
  }

  /** The selected builder never fails for a missing section: it fails
      exactly when its node list is null, which is tried first, or the
      timeout check fails. */
  lemma SelectedBuilderFailures(p: RedisProps)
    ensures SelectConfig(p).Thrown? <==> SelectedNodesNull(p) || GetTimeout(p).Thrown?
    ensures SelectedNodesNull(p) ==> SelectConfig(p) == Thrown(NullDereference)
    ensures !SelectedNodesNull(p) && GetTimeout(p).Thrown? ==> SelectConfig(p).error == GetTimeout(p).error
    ensures SelectConfig(p).Done? && p.sentinel.Some? ==> SelectConfig(p).value.SentinelServers?
    ensures SelectConfig(p).Done? && p.sentinel.None? && p.cluster.Some? ==> SelectConfig(p).value.ClusterServers?
    ensures SelectConfig(p).Done? && p.sentinel.None? && p.cluster.None? ==> SelectConfig(p).value.SingleServer?
  {
  }
}

=== FILE: registry.dfy ===
/**
 The per-name cache registry of the cache manager: `getCache` creates an
 instance the first time a name is asked for and hands back the same
 instance afterwards.
 */
module CacheRegistry {
  import opened CacheChange

  /** A created cache instance. `id` tells instances apart; each starts with
      its own empty lock table and its own empty producer/consumer queue. */
  datatype Instance = Instance(name: string, id: nat, locks: set<string>, pending: seq<Change>)

  /** The name-to-instance map and the number of instances created so far. */
  datatype Registry = Registry(caches: map<string, Instance>, created: nat)

  const Empty: Registry := Registry(map[], 0)

  /** Each registered instance carries its own name and an id below `created`,
      and no two names share an instance. */
  ghost predicate Valid(r: Registry)
  {
    && (forall n :: n in r.caches ==> r.caches[n].name == n && r.caches[n].id < r.created)
    && (forall n1, n2 :: n1 in r.caches && n2 in r.caches && n1 != n2 ==> r.caches[n1].id != r.caches[n2].id)
  }

  /** `createCache(name)`: a new instance with fresh locks and queue. */
  function CreateCache(r: Registry, name: string): (i: Instance)
    ensures i.name == name && i.locks == {} && i.pending == []
    ensures forall n :: n in r.caches && Valid(r) ==> r.caches[n].id != i.id
  {
    Instance(name, r.created, {}, [])
  }

  /** `getCache(name)`, i.e. `computeIfAbsent(name, createCache)`. */
  function GetCache(r: Registry, name: string): (res: (Registry, Instance))
    ensures name in r.caches ==> res == (r, r.caches[name])
    ensures name !in r.caches ==>
      && res.1 == CreateCache(r, name)
      && res.0.created == r.created + 1
    ensures name in res.0.caches && res.0.caches[name] == res.1
    ensures forall n :: n != name ==> (n in res.0.caches <==> n in r.caches)
    ensures forall n :: n != name && n in r.caches ==> res.0.caches[n] == r.caches[n]
    ensures Valid(r) ==> Valid(res.0)
  {
    if name in r.caches then (r, r.caches[name])
    else
      var i := CreateCache(r, name);
      (Registry(r.caches[name := i], r.created + 1), i)
  }

  /** `getCacheNames()`. */
  function CacheNames(r: Registry): set<string>
  {
    r.caches.Keys
  }

  /** The registry after a sequence of `getCache` calls. */
  function GetAll(r: Registry, names: seq<string>): Registry
    decreases |names|
  {
    if names == [] then r else GetCache(GetAll(r, names[..|names| - 1]), names[|names| - 1]).0
  }

  /** The set of names occurring in a request sequence. */
  function Requested(names: seq<string>): (ns: set<string>)
    ensures forall i :: 0 <= i < |names| ==> names[i] in ns
    ensures forall n :: n in ns ==> n in names
    decreases |names|
  {
    if names == [] then {} else Requested(names[..|names| - 1]) + {names[|names| - 1]}
  }

  /** From the empty registry, the names are exactly those ever requested,
      one instance was created per distinct name, and the registry stays valid. */
  lemma {:induction false} NamesAreThoseRequested(names: seq<string>)
    ensures CacheNames(GetAll(Empty, names)) == Requested(names)
    ensures GetAll(Empty, names).created == |Requested(names)|
    ensures Valid(GetAll(Empty, names))
    decreases |names|
  {
    if names != [] {
      var init := names[..|names| - 1];
      var last := names[|names| - 1];
      NamesAreThoseRequested(init);
      var before := GetAll(Empty, init);
      assert GetAll(Empty, names) == GetCache(before, last).0;
      assert Requested(names) == Requested(init) + {last};
      if last !in before.caches {
        assert last !in Requested(init);
        assert |Requested(init) + {last}| == |Requested(init)| + 1;
      } else {
        assert Requested(init) + {last} == Requested(init);
      }
    }
  }

  /** Asking twice for the same name yields the same instance and creates nothing more. */
  lemma GetCacheIsIdempotent(r: Registry, name: string)
    ensures var first := GetCache(r, name);
            GetCache(first.0, name) == first
  {
  }
}

=== FILE: stats.dfy ===
/**
 The hit/miss counter record. Counters are Java `long`s, so additions wrap
 around modulo 2^64; the rates are computed in real arithmetic.
 */
module CacheStatistics {

  const LONG_MIN: int := -0x8000_0000_0000_0000
  const LONG_MAX: int := 0x7fff_ffff_ffff_ffff
  const TWO_64: int := 0x1_0000_0000_0000_0000

  /** A Java `int` argument. */
  type Int32 = x: int | -0x8000_0000 <= x < 0x8000_0000

  /** A Java `long` value. */
  type Int64 = x: int | -0x8000_0000_0000_0000 <= x < 0x8000_0000_0000_0000

  /** Two's-complement wrap-around of a 64-bit addition. */
  function Wrap64(x: int): (r: Int64)
    ensures LONG_MIN <= x <= LONG_MAX ==> r == x
  {
    (x - LONG_MIN) % TWO_64 + LONG_MIN
  }

  /** Wrapping an intermediate sum changes nothing. */
  lemma WrapAbsorbs(x: int, y: int)
    ensures Wrap64(Wrap64(x) + y) == Wrap64(x + y)
  {
    var q := (x - LONG_MIN) / TWO_64;
    assert Wrap64(x) == x - q * TWO_64;
    assert Wrap64(x) + y - LONG_MIN == (x + y - LONG_MIN) - q * TWO_64;
    ModShift(x + y - LONG_MIN, q);
  }

  lemma ModShift(a: int, q: int)
    ensures (a - q * TWO_64) % TWO_64 == a % TWO_64
  {
    var r := a % TWO_64;
    var d := a / TWO_64;
    assert a == d * TWO_64 + r;
    assert a - q * TWO_64 == (d - q) * TWO_64 + r;
  }

  /** Adding `c` to a wrapped sum equals adding it to one summand first. */
  lemma BalanceStep(h: int, m: int, c: int)
    ensures Wrap64(Wrap64(h + m) + c) == Wrap64(Wrap64(h + c) + m)
  {
    WrapAbsorbs(h + m, c);
    WrapAbsorbs(h + c, m);
    assert h + m + c == h + c + m;
  }

  datatype Stats = Stats(
    requestCount: Int64,
    hitCount: Int64,
    missCount: Int64,
    cacheSize: Int64,
    maxCacheSize: Int64)

  /** A freshly constructed record: every field zero. */
  const Zero: Stats := Stats(0, 0, 0, 0, 0)

  /** Every request is either a hit or a miss (in 64-bit arithmetic). */
  predicate Balanced(s: Stats)
  {
    s.requestCount == Wrap64(s.hitCount + s.missCount)
  }

  /** `recordHits(count)`. */
  function RecordHits(s: Stats, count: Int32): (r: Stats)
    ensures r.requestCount == Wrap64(s.requestCount + count) && r.hitCount == Wrap64(s.hitCount + count)
    ensures r.missCount == s.missCount && r.cacheSize == s.cacheSize && r.maxCacheSize == s.maxCacheSize
    ensures Balanced(s) ==> Balanced(r)
  {
    BalanceStep(s.hitCount, s.missCount, count);
    s.(requestCount := Wrap64(s.requestCount + count), hitCount := Wrap64(s.hitCount + count))
  }

  /** `recordMisses(count)`. */
  function RecordMisses(s: Stats, count: Int32): (r: Stats)
    ensures r.requestCount == Wrap64(s.requestCount + count) && r.missCount == Wrap64(s.missCount + count)
    ensures r.hitCount == s.hitCount && r.cacheSize == s.cacheSize && r.maxCacheSize == s.maxCacheSize
    ensures Balanced(s) ==> Balanced(r)
  {
    BalanceStep(s.missCount, s.hitCount, count);
    s.(requestCount := Wrap64(s.requestCount + count), missCount := Wrap64(s.missCount + count))
  }

  /** `updateCacheSize(size)`: only the size changes. */
  function UpdateCacheSize(s: Stats, size: Int64): (r: Stats)
    ensures r.cacheSize == size
    ensures r.requestCount == s.requestCount && r.hitCount == s.hitCount && r.missCount == s.missCount
    ensures r.maxCacheSize == s.maxCacheSize
  {
    s.(cacheSize := size)
  }

  /** `setMaxCacheSize(max)`: only the maximum changes. */
  function SetMaxCacheSize(s: Stats, max: Int64): (r: Stats)
    ensures r.maxCacheSize == max
    ensures r.requestCount == s.requestCount && r.hitCount == s.hitCount && r.missCount == s.missCount
    ensures r.cacheSize == s.cacheSize
  {
    s.(maxCacheSize := max)
  }

  /** `getHitRate()`: zero without requests, else hits per request. */
  function HitRate(s: Stats): (r: real)
    ensures s.requestCount == 0 ==> r == 0.0
    ensures s.requestCount != 0 ==> r * (s.requestCount as real) == s.hitCount as real
  {
    if s.requestCount == 0 then 0.0 else s.hitCount as real / s.requestCount as real
  }

  /** `getMissRate()`: zero without requests, else misses per request. */
  function MissRate(s: Stats): (r: real)
    ensures s.requestCount == 0 ==> r == 0.0
    ensures s.requestCount != 0 ==> r * (s.requestCount as real) == s.missCount as real
  {
    if s.requestCount == 0 then 0.0 else s.missCount as real / s.requestCount as real
  }

  /** One recorded batch of hits or misses. */
  datatype Event = Hits(n: Int32) | Misses(n: Int32)

  function RecordAll(s: Stats, evs: seq<Event>): Stats
    decreases |evs|
  {
    if evs == [] then s
    else
      var s' := match evs[0] case Hits(n) => RecordHits(s, n) case Misses(n) => RecordMisses(s, n);
      RecordAll(s', evs[1..])
  }

  /** From all-zero counters, any mix of `recordHits`/`recordMisses` keeps
      requests equal to hits plus misses. */
  lemma {:induction false} RecordingStaysBalanced(s: Stats, evs: seq<Event>)
    requires Balanced(s)
    ensures Balanced(RecordAll(s, evs))
    decreases |evs|
  {
    if evs != [] {
      var s' := match evs[0] case Hits(n) => RecordHits(s, n) case Misses(n) => RecordMisses(s, n);
      RecordingStaysBalanced(s', evs[1..]);
    }
  }

  /** Every record reachable from a freshly constructed one keeps requests
      equal to hits plus misses. */
  lemma FreshRecordStaysBalanced(evs: seq<Event>)
    ensures Balanced(RecordAll(Zero, evs))
  {
    RecordingStaysBalanced(Zero, evs);
  }

  /** Without overflow and with non-negative counts, the two rates of a
      balanced record with requests add up to one. */
  lemma RatesSumToOne(s: Stats)
    requires Balanced(s)
    requires 0 <= s.hitCount && 0 <= s.missCount && s.hitCount + s.missCount <= LONG_MAX
    requires s.requestCount > 0
    ensures HitRate(s) + MissRate(s) == 1.0
  {
    var req := s.requestCount as real;
    assert s.requestCount == s.hitCount + s.missCount;
    assert HitRate(s) == s.hitCount as real / req;
    assert MissRate(s) == s.missCount as real / req;
    assert s.hitCount as real / req + s.missCount as real / req == (s.hitCount as real + s.missCount as real) / req;
  }
}

=== FILE: strings.dfy ===
/** Prefix tests on strings, used by key namespacing and node addresses. */
module Strings {

  predicate StartsWith(s: string, p: string)
  {
    |p| <= |s| && s[..|p|] == p
  }

  lemma StartsWithTrans(s: string, p: string, q: string)
    requires StartsWith(s, q) && StartsWith(q, p)
    ensures StartsWith(s, p)
  {
    assert s[..|p|] == s[..|q|][..|p|];
  }

  /** Decimal digits of a natural number. */
  function NatToString(n: nat): (r: string)
    ensures |r| >= 1
    ensures forall i :: 0 <= i < |r| ==> '0' <= r[i] <= '9'
  {
    var d := "0123456789"[n % 10];
    if n < 10 then [d] else NatToString(n / 10) + [d]
  }

  /** Java's decimal rendering of an int. */
  function IntToString(n: int): (r: string)
    ensures ':' !in r
  {
    if n < 0 then "-" + NatToString(-n) else NatToString(n)
  }
}

=== FILE: values.dfy ===
/**
 Values shared by both cache versions: the optional-value wrapper standing
 in for Java's null, the opaque cached value, the penetration-guard sentinel
 and the three possible outcomes of a value loader.
 */
module Values {

  /** Java's nullable reference: `None` is null. */
  datatype Option<+T> = None | Some(value: T)

  /** An opaque cached value. Strings are kept apart from other objects
      because only a string can equal the sentinel. `RangeWritten` is what a
      Redis SETRANGE leaves: the earlier value (if any), padded with zero
      bytes up to `offset`, overwritten there by `written`. It stands for
      bytes in Redis, not for an object an application hands to the cache. */
  datatype Val =
    | Text(text: string)
    | Obj(id: nat)
    | RangeWritten(prior: Option<Val>, offset: nat, written: string)

  /** The string stored in the shared tier for a load that produced nothing. */
  const NULL_VALUE: string := "CUSTOM_NULL_VALUE"

  /** The sentinel as a stored value. */
  const NullSentinel: Val := Text(NULL_VALUE)

  /** The third argument of the sentinel writes. Passed as an `int` to a
      three-argument `set`, it is a SETRANGE offset rather than a lifetime. */
  const NULL_VALUE_EXPIRE_TIME: nat := 300

  /** A value whose bytes from offset `NULL_VALUE_EXPIRE_TIME` on are the
      sentinel string, as a range write of it leaves them. */
  predicate HoldsSentinelAt(v: Val)
  {
    v.RangeWritten? && v.offset == NULL_VALUE_EXPIRE_TIME && v.written == NULL_VALUE
  }

  /** `opsForValue().set(key, NULL_VALUE, NULL_VALUE_EXPIRE_TIME)`: the value
      stored at a key that held `prior`. It holds the sentinel string at the
      offset but is never the sentinel itself; over a value that already
      holds it there, the bytes do not change. What it leaves cannot be read
      back as an object. */
  function WriteSentinelAt(prior: Option<Val>): (r: Val)
    ensures !IsSentinel(r) && !Readable(r)
    ensures HoldsSentinelAt(r)
    ensures prior.Some? && HoldsSentinelAt(prior.value) ==> r == prior.value
  {
    if prior.Some? && HoldsSentinelAt(prior.value) then prior.value
    else RangeWritten(prior, NULL_VALUE_EXPIRE_TIME, NULL_VALUE)
  }

  /** Writing the sentinel range twice leaves what writing it once did. */
  lemma WriteSentinelIsIdempotent(prior: Option<Val>)
    ensures WriteSentinelAt(Some(WriteSentinelAt(prior))) == WriteSentinelAt(prior)
  {
  }

  /** Whether the template's serializer turns the stored bytes back into an
      object. Every value the cache writes through `set` is; the bytes a
      range write leaves (zero padding, then the raw sentinel string) are not
      a serialised object, and reading them throws. */
  predicate Readable(v: Val)
  {
    !v.RangeWritten?
  }

  /** `NULL_VALUE.equals(value)`: true for the sentinel string only. */
  predicate IsSentinel(v: Val)
  {
    v.Text? && v.text == NULL_VALUE
  }

  /** What one call of a value loader does: throw, return null, or return a value. */
  datatype Loader = Throws | ReturnsNull | Returns(v: Val)

  /** The exceptions a cache operation can end with: the RuntimeException a
      failed load is rethrown as (carrying the full cache key), the
      ClassCastException of treating a list of values as a map, and the
      serializer's exception on reading bytes that are not a serialised
      object (it does not name the key). */
  datatype CacheError = LoadFailed(cacheKey: string) | ListIsNotMap | Unreadable

  /** A call that either returns a value or throws. */
  datatype Result<+T> = Ok(value: T) | Err(error: CacheError)
}

=== FILE: versions.dfy ===
/**
 How the two cache versions answer the same `get` differently. Both use
 the same full-key scheme for Redis and the filter; they differ in whether the
 filter gates the Redis read, whether a Redis hit is copied to the local tier,
 and what a stored sentinel reads as.
 */
module VersionDifferences {
  import opened Values
  import opened Bloom
  import opened CacheChange
  import M = ManageCache
  import U = CustomCache

  /** A `manage/support` state and a `manager/custom` state that share the
      application, cache name, Redis contents and filter, and whose local
      tiers both lack the key `k`. */
  predicate SameShared(m: M.Cache, u: U.Cache, k: string)
  {
    && m.app == u.app && m.name == u.name
    && m.shared == u.shared && m.bloom == u.bloom
    && M.Key(m, k) !in m.local && k !in u.local
  }

  /** A key the filter knows, missing locally but present in Redis: both
      versions return the Redis value, but `manage/support` copies it into
      its local tier while the custom version's `lookup` leaves local alone
      and appends a LOOK record. */
  lemma FilterHitAfterLocalMiss(m: M.Cache, u: U.Cache, k: string, loader: Loader, contended: bool)
    requires SameShared(m, u, k)
    requires Contains(m.bloom, M.Key(m, k))
    requires M.Key(m, k) in m.shared && Readable(m.shared[M.Key(m, k)]) && !IsSentinel(m.shared[M.Key(m, k)])
    ensures var v := m.shared[M.Key(m, k)];
      && M.Get(m, k, loader, contended).result == Ok(Some(v))
      && U.Get(u, k, loader).result == Ok(Some(v))
    ensures var mo := M.Get(m, k, loader, contended);
      M.Key(m, k) in mo.cache.local && mo.cache.local[M.Key(m, k)] == m.shared[M.Key(m, k)]
    ensures var uo := U.Get(u, k, loader);
      && k !in uo.cache.local
      && uo.cache.changes == u.changes + [Change(LOOK, U.Key(u, k), None)]
  {
  }

  /** A key the filter does not know but Redis holds: `manage/support`
      answers null without reading Redis; the custom version's `lookup`
      returns the Redis value, without copying it to local. */
  lemma FilterMissWithSharedValue(m: M.Cache, u: U.Cache, k: string, loader: Loader, contended: bool)
    requires SameShared(m, u, k)
    requires !Contains(m.bloom, M.Key(m, k))
    requires M.Key(m, k) in m.shared && Readable(m.shared[M.Key(m, k)])
    ensures M.Get(m, k, loader, contended) == M.Outcome(m, Ok(None), 0)
    ensures var uo := U.Get(u, k, loader);
      && uo.result == Ok(Some(m.shared[M.Key(m, k)]))
      && uo.loaderCalls == 0
      && k !in uo.cache.local
      && uo.cache.changes == u.changes + [Change(LOOK, U.Key(u, k), None)]
  {
  }

  /** Bytes in Redis the serializer cannot read, such as a range-written
      sentinel: the custom version's `lookup` throws whatever the filter says,
      while `manage/support` throws only when the filter lets the read
      through. Neither calls the loader or changes anything. */
  lemma UnreadableRedisValue(m: M.Cache, u: U.Cache, k: string, loader: Loader, contended: bool)
    requires SameShared(m, u, k)
    requires M.Key(m, k) in m.shared && !Readable(m.shared[M.Key(m, k)])
    ensures Contains(m.bloom, M.Key(m, k)) ==> M.Get(m, k, loader, contended) == M.Outcome(m, Err(Unreadable), 0)
    ensures !Contains(m.bloom, M.Key(m, k)) ==> M.Get(m, k, loader, contended) == M.Outcome(m, Ok(None), 0)
    ensures U.Get(u, k, loader) == U.Outcome(u, Err(Unreadable), 0)
  {
  }

  /** The sentinel string stored in Redis under a key the filter knows:
      `manage/support` turns it into null, the custom version hands the raw
      sentinel back to its caller. */
  lemma SentinelReadsDiffer(m: M.Cache, u: U.Cache, k: string, loader: Loader, contended: bool)
    requires SameShared(m, u, k)
    requires Contains(m.bloom, M.Key(m, k))
    requires M.Key(m, k) in m.shared && IsSentinel(m.shared[M.Key(m, k)])
    ensures M.Get(m, k, loader, contended).result == Ok(None)
    ensures U.Get(u, k, loader).result == Ok(Some(NullSentinel))
  {
  }

  /** A key nobody has written: `manage/support` never calls the loader,
      the custom version calls it once and caches what it returns. */
  lemma UnknownKeyLoads(m: M.Cache, u: U.Cache, k: string, v: Val, contended: bool)
    requires SameShared(m, u, k)
    requires !Contains(m.bloom, M.Key(m, k)) && M.Key(m, k) !in m.shared
    ensures M.Get(m, k, Returns(v), contended) == M.Outcome(m, Ok(None), 0)
    ensures U.Get(u, k, Returns(v)).loaderCalls == 1
    ensures U.Get(u, k, Returns(v)).result == Ok(Some(v))
  {
  }
}
